=== FILE: README.md ===
# GMX LayerZero OFT wiring — a Dafny model

This project models the configuration logic of the GMX LayerZero deployment
repository. That logic decides which GM and GLV token contracts are deployed on
which networks and how they are wired together. It also covers what the
repository's maintenance tasks read back from deployment artifacts. The model
covers:

- **Static policy tables** (`layerzero.dfy`, `networks.dfy`, `tokens.dfy`).
  - The enforced executor options for messages arriving at a spoke or at the hub.
  - The DVN sets for testnet and mainnet.
  - The block-confirmation and owner tables, which are partial maps.
  - The expansion network lists.
  - The market-pair registry.
  - `config_invariants.dfy` proves the facts that tie these tables together.
- **Market-pair selection and the hub/expansion check** (`deploy_utils.dfy`).
  - The registry lookup by `MARKET_PAIR`.
  - The accumulating check that no hub is listed as an expansion network.
  - The hub/spoke role predicates.
  - The hub-address resolver.
- **The wire generator** (`wire_generator.dfy`, with `pairs.dfy` for the index-pair enumeration).
  - The participant list and its contract names.
  - `createContracts`.
  - `getEnforcedOptions`.
  - `createPathways`.
  - `generateWireConfig`, up to the point where it hands the pathway list to the external connection builder.
- **Deployment artifacts** (`naming.dfy`, `deployment_files.dfy`).
  - The file-name grammar `(GlvToken|MarketToken)_(Adapter|OFT)_<pair>.json` and its round trip with the names the wire generator builds.
  - The stage network filter.
  - Grouping by market pair and GM/GLV category, in first-seen order.
- **The three tasks.** Each is modelled as a pure function from its inputs (directory listings, chain readings) to its outcome. The outcome is a report or plan, or a stop reason.
  - `display_deployments.dfy` models `lz:sdk:display-deployments`.
  - `validate_deployments.dfy` models `lz:sdk:validate-deployments`: which source→target contract pairs get a `quoteSend` call.
  - `send_tokens.dfy` models `lz:sdk:vape:send-tokens`: which contract sends, to which peers, and how much each peer receives.

`wrappers.dfy`, `seqs.dfy` and `strings.dfy` hold the `Option`/`Result` types and the JavaScript array and string operations the source relies on. Those operations are `includes`, `filter`, `new Set`, `startsWith`/`endsWith`, and `sort`.

Modelling choices:

- Endpoint ids are abstract. Each known network is a distinct integer constant; only their distinctness matters.
- An `expansionNetworks` field may be undefined. It is therefore `Option<seq<Eid>>`:
  - the validator reads an undefined list as empty (`|| []`);
  - the wire generator and the send task spread the list, which throws on undefined, so they return an error.
- The source's thrown errors, `process.exit` calls and early `return`s become `Failure` values of a datatype that says which check stopped the run.
- JavaScript reads an empty string as false. An empty string therefore stands for an absent string argument or environment variable.
- The registry and the grouped deployments are association lists in insertion order. The display task's model opens the groups of `null`-content files after the others. The task only reads its groups through the sorted pair list, so that order is not observable.
- JavaScript lists integer-like keys (a market pair `1`, say) first, in ascending numeric order; the lists here do not. The registry has no such key, and the display task sorts its pairs, so only the order of the validate task's groups is affected.
- The regular expression's `(.+)` does not match line terminators. The market-pair capture is modelled that way.
- Enforced options come as a pair. Slot 0 is what chain B receives with and slot 1 what chain A receives with. This follows the slot convention in `layerzero.MarketToken.testnet.config.ts:53`.

Behaviours of the code worth noting:

- A pathway whose two ends are both the hub takes the "both spokes" branch. Both of its slots get the spoke policy.
- `createContracts` keeps duplicate networks. Distinct pathways are proved only under an explicit no-duplicates precondition.
- A network missing from the confirmation table yields `undefined` (`None`), not 0.
- A deployment file whose JSON is `null` opens its market pair's group, and then reading `address` throws. Both tasks therefore list such a pair with empty buckets. The validate task then also goes on past its "no deployments" stop.

## Model

| member | source | states |
|---|---|---|
| LayerZero.ToSpokeShape | devtools/config/layerzero.ts:7-14 | the spoke policy is exactly one option: message type 1, LZ_RECEIVE, 80_000 gas, no value, no compose |
| LayerZero.ToHubExtendsToSpoke | devtools/config/layerzero.ts:40-42 | the hub policy has three options and the spoke policy as a strict prefix |
| LayerZero.ComposeOnlyToHub | devtools/config/layerzero.ts:16-30 | the compose option (type 2, index 0, 8_000_000 gas) is in the hub policy and not in the spoke policy |
| LayerZero.EnforcedValuesZero | devtools/config/layerzero.ts:12 | no option of either policy carries native value |
| LayerZero.DvnSets | devtools/config/layerzero.ts:48-53 | there are two stages; testnet requires only LayerZero Labs and has no optional set; mainnet requires LayerZero Labs and Canary plus 1 of 2 optional verifiers, and the threshold fits the set |
| Networks.BlockConfirmations | devtools/config/networks.ts:6-18 | the lookup is defined exactly on the listed networks, and every listed depth is at least one block |
| Networks.OwnershipTransfer | devtools/config/networks.ts:23-35 | the lookup is defined exactly on the listed networks and yields one of the three owner addresses |
| Networks.ExpansionNetworksConfigured | devtools/config/networks.ts:40-49 | every expansion network of both stages has a confirmation depth and an owner |
| Networks.ExpansionNetworksWellFormed | devtools/config/networks.ts:40-49 | neither expansion list repeats a network or contains its stage's hub |
| Networks.ConfirmationDepths | devtools/config/networks.ts:8-17 | every depth is at least 1; both testnet depths are exactly 1 |
| Networks.TablesArePartial | devtools/config/networks.ts:6 | an unlisted network reads as absent in both tables |
| Tokens.Lookup | devtools/deploy/utils.ts:14 | the registry lookup succeeds exactly for a listed key and returns that key's entry |
| ConfigInvariants.RegistryKeys | devtools/config/tokens.ts:76-80 | the registry keys are WETH_USDC, WBTC_USDC, WETH_USDC_SG, in that order |
| ConfigInvariants.RegistryEntriesValid | devtools/config/tokens.ts:10-71 | every entry passes the hub/expansion check; GM and GLV share hub and expansion list; the mainnet pairs use the Arbitrum hub and mainnet list, the testnet pair the Arbitrum-Sepolia hub and testnet list |
| ConfigInvariants.RegistryNetworksConfigured | devtools/config/tokens.ts:10-71 | every hub and expansion network of every entry has a confirmation depth and an owner |
| ConfigInvariants.WiringFullyConfigured | devtools/wire/wire-generator.ts:18-25 | when every contract's network is in both tables, every contract has an owner and every pathway both confirmation depths |
| ConfigInvariants.ParticipantsConfigured | devtools/wire/wire-generator.ts:103-108 | if a token's hub and expansion networks are all configured, so is every participant contract |
| ConfigInvariants.EntryWiresCompletely | devtools/wire/wire-generator.ts:83-113 | a registered entry that passes the hub/expansion check and whose networks are all configured wires into the hub's adapter followed by the expansion networks' OFTs, in order, with pathways joining every two of them and nothing else; every contract is owned and every pathway has both confirmation depths |
| ConfigInvariants.RegistryWiresCompletely | devtools/wire/wire-generator.ts:83-113 | wiring any registered pair selected through the environment succeeds: 6 contracts and 15 pathways on mainnet, 2 and 1 on testnet, every two contracts joined, every owner and depth present |
| DeployUtils.GetDeployConfig | devtools/deploy/utils.ts:10-42 | succeeds iff the variable is set and names a registered pair, returning that entry; a failure lists all keys and says whether the variable was unset |
| DeployUtils.IsHubInNetworks | devtools/deploy/utils.ts:79-86 | holds iff the token type's hub eid is in the list |
| DeployUtils.ValidationErrors | devtools/deploy/utils.ts:92-114 | all four checks run: one entry per hub listed in an expansion list, and no duplicates |
| DeployUtils.ValidateHubNetworksNotInExpansion | devtools/deploy/utils.ts:92-121 | fails iff some hub (GM or GLV) is in some expansion list (GM or GLV), carrying every violation |
| DeployUtils.MissingExpansionIsEmpty | devtools/deploy/utils.ts:95-96 | an undefined expansion list holds no hub and yields no violation |
| DeployUtils.ShouldDeployToNetwork | devtools/deploy/utils.ts:126-139 | holds iff the eid is a hub or an expansion network of either token |
| DeployUtils.HubsAreDeployTargets | devtools/deploy/utils.ts:126-139 | every hub is a deployment target |
| DeployUtils.IsHubNetwork | devtools/deploy/utils.ts:144-147 | holds iff the eid is the token type's hub, i.e. the hub is in the one-element list of it |
| DeployUtils.GetContractAddress | devtools/deploy/utils.ts:152-168 | on the hub it returns the hub's configured address; on every other eid it fails, naming the hub |
| PairEnumeration.IndexPairsMembership | devtools/wire/wire-generator.ts:59-61 | the nested loops with `i < j` visit exactly the pairs `i < j < n` |
| PairEnumeration.IndexPairsCount | devtools/wire/wire-generator.ts:59-61 | they visit `n(n-1)/2` pairs |
| PairEnumeration.IndexPairsIncreasing | devtools/wire/wire-generator.ts:59-61 | they visit the pairs in strictly increasing lexicographic order |
| WireGenerator.CreateContracts | devtools/wire/wire-generator.ts:18-25 | one entry per contract, in order, with owner and delegate both the network's configured owner (absent when unlisted) |
| WireGenerator.GetEnforcedOptions | devtools/wire/wire-generator.ts:31-50 | on a hub/spoke pathway the hub side receives with the hub policy and the spoke side with the spoke policy, whichever side the hub is on; with no hub, or both ends on the hub, both sides get the spoke policy |
| WireGenerator.ComposeBudgetGoesToHub | devtools/wire/wire-generator.ts:40-48 | only the hub side of a hub/spoke pathway has a compose budget; spoke/spoke slots are identical and compose-free |
| WireGenerator.CreatePathways | devtools/wire/wire-generator.ts:56-78 | `n(n-1)/2` pathways, each with the DVN set unchanged, confirmations `(A's, B's)` and the options of `getEnforcedOptions` |
| WireGenerator.PathwaysCoverAllPairs | devtools/wire/wire-generator.ts:59-72 | every pair `i < j` of contracts is joined, with the earlier one as A |
| WireGenerator.PathwaysJoinEarlierToLater | devtools/wire/wire-generator.ts:59-72 | every pathway joins a contract to a later one |
| WireGenerator.PathwaysDistinct | devtools/wire/wire-generator.ts:61 | with no network listed twice, no pathway joins a network to itself and no two join the same two networks |
| WireGenerator.Participants | devtools/wire/wire-generator.ts:103 | the participants are the hub followed by the expansion list; an undefined list is an error |
| WireGenerator.ParticipantPoints | devtools/wire/wire-generator.ts:99-109 | one contract per participant, in order; it is the adapter exactly when its eid is the hub's, otherwise the OFT |
| WireGenerator.ContractNamesDistinct | devtools/wire/wire-generator.ts:99-100 | the adapter and OFT names of a pair differ |
| WireGenerator.ResolveConfig | devtools/wire/wire-generator.ts:91 | a given config is used; otherwise it succeeds iff `MARKET_PAIR` is set and registered, with that entry, and a failure lists every key |
| WireGenerator.ResolveKey | devtools/wire/wire-generator.ts:92 | a given key is used; otherwise it succeeds iff `MARKET_PAIR` is set and registered, yielding the variable, and a failure lists every key |
| WireGenerator.GenerateWireConfig | devtools/wire/wire-generator.ts:83-113 | an unresolved configuration or key stops it with the lookup's error; the hub/expansion check runs next and its failure is final; past the check it fails exactly when the token's expansion list is undefined; on success the contracts are the participants in order, the hub's adapter first and an OFT on every expansion network, and the pathways are those `createPathways` builds over them: `n(n-1)/2` of them, joining every two contracts with the earlier as A and nothing else, each following the pathway policy |
| WireGenerator.GraphJoinsEveryPair | devtools/wire/wire-generator.ts:56-72 | in the contracts and pathways built from the same points, every two contracts are joined with the earlier as A, and every pathway joins a contract to a later one |
| WireGenerator.DeployTargetsAreParticipants | devtools/deploy/utils.ts:126-139 | a network is a deployment target iff it takes part in the GM or the GLV wire graph |
| Naming.CategoryInverse | tasks/display-deployments.ts:65 | `GlvToken` is category GLV and `MarketToken` GM; the tasks' choice of contract type for a category is its inverse |
| Naming.ContractNameShape | devtools/wire/wire-generator.ts:99-100 | a contract name is the type name, `_`, the role name, `_`, then the key |
| Naming.ContractNameInjective | devtools/wire/wire-generator.ts:99-100 | two contract names are equal iff their types, roles and keys all are |
| Naming.MatchAs | tasks/display-deployments.ts:61 | a match of one alternative of the pattern reports that alternative's contract type and role |
| Naming.ParseDeploymentFileName | tasks/display-deployments.ts:61 | a match is the file name built from its captures, with a well-formed pair, and the alternative it reports matches too |
| Naming.ParseSound | tasks/display-deployments.ts:61-64 | a file name that matches is the name built from its captures plus `.json`, with a non-empty, line-terminator-free pair |
| Naming.ParseFileNameOf | tasks/display-deployments.ts:61-64 | round trip: the file name of any contract name built as in wire-generator.ts lines 99-100 parses back to its type, role and pair |
| Naming.ParseExactly | tasks/display-deployments.ts:61-64 | a name parses to given captures iff their pair is well formed and the name is built from them |
| Strings.Contains | tasks/display-deployments.ts:41-42 | `includes` holds iff the substring occurs at some position |
| Strings.Sort | tasks/display-deployments.ts:85 | the output is sorted and a permutation of the input |
| DeploymentFiles.IsCandidateFile | tasks/display-deployments.ts:52 | a file is considered iff its name ends in `.json` and `solcInputs` occurs nowhere in it |
| DeploymentFiles.StageFilter | tasks/display-deployments.ts:41-43 | with `--mainnet` a network is kept iff its name mentions `mainnet` and not `testnet`; otherwise with `--testnet` iff it mentions `testnet`; with neither flag always |
| DeploymentFiles.SolcInputsNeverConsidered | tasks/display-deployments.ts:52 | a file whose name contains `solcInputs` is never considered |
| DeploymentFiles.StagesDisjoint | tasks/display-deployments.ts:41-42 | no network passes both the mainnet and the testnet filter |
| DeploymentFiles.Touch | tasks/display-deployments.ts:67-69 | opening a pair's group adds the pair once, at the end, and changes no bucket or total |
| DeploymentFiles.TouchAll | tasks/display-deployments.ts:67-69 | opening the groups of several pairs adds exactly those pairs, keeps the pairs unique, and changes no bucket or total |
| DeploymentFiles.Push | tasks/display-deployments.ts:71-75 | a push appends to exactly one bucket and adds one to the total |
| DeploymentFiles.AddEntry | tasks/display-deployments.ts:67-75 | one deployment opens its pair's group at the end if the pair is new, and lands at the end of exactly one bucket; the total grows by one |
| DeploymentFiles.GroupEntries | tasks/display-deployments.ts:67-75 | the pairs are the entries' pairs once each, in first-seen order; each entry lands in its pair's bucket for its category, in order; the total is the number of entries |
| DisplayDeployments.FileEntries | tasks/display-deployments.ts:54-75 | one entry per accepted file, in order, carrying its network, address and parsed name; the entries are exactly those of the accepted files |
| DisplayDeployments.KeepNetwork | tasks/display-deployments.ts:39-44 | an explicit network name keeps exactly that network, whatever the stage flags; otherwise `--mainnet`, then `--testnet`, decides by the substrings the name contains |
| DisplayDeployments.KeptDirs | tasks/display-deployments.ts:35-44 | the scanned directories are exactly those the network filter keeps |
| DisplayDeployments.DirEntries | tasks/display-deployments.ts:48-80 | the entries number the accepted files of the directories and are exactly the entries of those files, each tagged with its directory |
| DisplayDeployments.NullPairs | tasks/display-deployments.ts:54-78 | the pairs opened by `null`-content files are exactly those of the kept directories' files that parse to `null` and have a matching name |
| DisplayDeployments.DisplayDeployments | tasks/display-deployments.ts:28-123 | stops without a directory; otherwise it reports iff some kept directory holds a file that parses as JSON, `null` included, with a matching name; it lists, sorted and without repeats, exactly the pairs of those files; the buckets hold exactly the accepted files, those whose content is not `null`, of the kept networks; the total counts them |
| DisplayDeployments.ReportIffOpened | tasks/display-deployments.ts:67-90 | the sorted pair list holds exactly the pairs the kept files open, so it is empty iff no kept directory holds such a file |
| DisplayDeployments.EntryPairsListed | tasks/display-deployments.ts:54-78 | a pair is an accepted entry's or a `null`-content file's iff some kept file opens it |
| ValidateDeployments.SourceNetworks | tasks/validate-deployments.ts:64-73 | with a network list the sources are the listed networks that have a directory; otherwise the directories the stage filter keeps |
| ValidateDeployments.TargetNetworks | tasks/validate-deployments.ts:86-90 | the targets are the directories the stage filter keeps, whatever network list was given |
| ValidateDeployments.MissingNetworks | tasks/validate-deployments.ts:77-78 | the missing networks are exactly the requested ones without a directory |
| ValidateDeployments.NetworksToScan | tasks/validate-deployments.ts:95 | the scanned networks are the duplicate-free union of sources and targets |
| ValidateDeployments.EidOf | tasks/validate-deployments.ts:126-130 | a network has an endpoint id iff it is configured with a non-zero one, and then it is that one |
| ValidateDeployments.Selected | tasks/validate-deployments.ts:100-121 | a file opens its pair iff it is a candidate, parses as JSON (possibly to `null`), its name is built from captures with a well-formed pair, and those pass the market-pair and token-type filters |
| ValidateDeployments.CollectedIn | tasks/validate-deployments.ts:102-137 | a directory contributes nothing without an endpoint id, otherwise one deployment per selected file whose content is not `null`, and no other |
| ValidateDeployments.CollectedAcross | tasks/validate-deployments.ts:96-142 | the deployments collected are exactly those the scanned networks' directories contribute |
| ValidateDeployments.ScanFile | tasks/validate-deployments.ts:102-140 | the buckets gain exactly the file's deployment when it is selected, its content is not `null` and its network has an endpoint id, and nothing else; a selected file opens its pair even without an id or with `null` content; the total follows |
| ValidateDeployments.ScanFiles | tasks/validate-deployments.ts:96-142 | the buckets gain exactly the directory's collected deployments, in file order, and the total their number; the pairs opened are those of its selected files |
| ValidateDeployments.ScanNetworks | tasks/validate-deployments.ts:94-142 | every bucket gains exactly the collected deployments of its pair and category, in scan order, and the total their number; a pair is opened iff a scanned directory holds a selected file of it, id or not; every collected deployment carries its network's endpoint id |
| ValidateDeployments.TestPairs | tasks/validate-deployments.ts:179-182 | the tested pairs are exactly the source×target pairs on different networks |
| ValidateDeployments.Quotes | tasks/validate-deployments.ts:176-182 | the pairs quoted for a group are exactly its contracts on source networks against its contracts on target networks, never within one network |
| ValidateDeployments.BothDirectionsTested | tasks/validate-deployments.ts:179-182 | two networks that are each source and target are tested both ways |
| ValidateDeployments.OutcomeFor | tasks/validate-deployments.ts:159-182 | an empty group is passed over silently; one contract is skipped with its count; otherwise the quoted pairs are the group's source×target pairs on different networks |
| ValidateDeployments.GroupOutcomes | tasks/validate-deployments.ts:155-166 | each outcome of a pair describes the contracts of its category; a category with at least two contracts is tested on its quotes, one with one contract is skipped with that count, an empty one yields nothing |
| ValidateDeployments.AllOutcomes | tasks/validate-deployments.ts:155-182 | every outcome agrees with the contracts grouped under its pair and category, and every non-empty group has its outcome: tested on its quotes with two or more contracts, skipped with one |
| ValidateDeployments.ValidateDeployments | tasks/validate-deployments.ts:43-182 | stops without a directory; a requested network with no directory stops it before scanning, listing the missing and the available networks; otherwise it goes on iff a scanned directory holds a selected file, and its outcomes cover the collected deployments; every quote goes from a source to a target on a different network, with both contracts carrying their network's endpoint id |
| ValidateDeployments.ValidateScanned | tasks/validate-deployments.ts:92-182 | stops iff no scanned directory holds a selected file; otherwise every outcome describes its group of collected deployments and every non-empty group has one; every quoted pair joins different networks from source to target, each with its own endpoint id |
| ValidateDeployments.AllOutcomesSound | tasks/validate-deployments.ts:176-182 | every quoted pair goes from a source network to a different target network |
| ValidateDeployments.AllOutcomesRegistered | tasks/validate-deployments.ts:185-205 | if every collected deployment carries its network's configured endpoint id, so do both ends of every quoted pair, the ids the quote is sent from and to |
| SendTokens.TokenTypeOf | tasks/vape-send-tokens.ts:52 | the token type is GM exactly for the string `GM`, GLV otherwise |
| SendTokens.SenderContract | tasks/vape-send-tokens.ts:61-64 | the sender's deployment file name parses back to the token type's category, the pair, and the adapter role exactly on the hub |
| SendTokens.AllNetworkEids | tasks/vape-send-tokens.ts:111-113 | the candidates are exactly the hub, or the hub followed by the expansion list; the latter fails when the list is undefined |
| SendTokens.CandidatesAreParticipants | tasks/vape-send-tokens.ts:111-113 | without the hub-only flag the candidates are the wire generator's participants, and both fail together |
| SendTokens.PeerEids | tasks/vape-send-tokens.ts:111-121 | the peers are, in configured order, the candidates except the current network, and only those listed when an id list is given; duplicate-free candidates give duplicate-free peers |
| SendTokens.PerPeerShare | tasks/vape-send-tokens.ts:182 | the full-mode share is the largest amount that can go to every peer out of the balance |
| SendTokens.Sends | tasks/vape-send-tokens.ts:257-295 | one send per peer, in order, to the recipient with no minimum; every send carries the per-peer amount except the last in full mode, which carries the re-read balance |
| SendTokens.SendTokens | tasks/vape-send-tokens.ts:31-196 | stops without an amount or the full flag, or on a failed market-pair lookup; otherwise it goes on exactly as `SendFrom` with the pair's configuration for the token type; on success it sends from the pair's adapter on the hub and OFT elsewhere, as the deployer, once to every peer in the order `PeerEids` gives them; each send carries the per-peer amount, except the last in full mode, which carries the re-read balance |
| SendTokens.SendFrom | tasks/vape-send-tokens.ts:54-126 | a missing or zero endpoint id stops it first; then it returns early exactly when the sending contract is not deployed, listing the deployments naming the pair; then it stops exactly when the token type's deployer is missing; otherwise it goes on as `PlanSends` with that contract and deployer; on success the peers are exactly the `PeerEids` list, in order, and each send carries the per-peer amount, the last in full mode carrying the re-read balance |
| SendTokens.PlanSends | tasks/vape-send-tokens.ts:110-196 | an undefined expansion list stops it when listing peers; no peers stops it before the balance is read; an unreadable balance stops it; full mode stops iff the balance is zero, and otherwise sends every peer but the last the fair share and the last the re-read balance; fixed mode goes on iff the amount parses, possibly negative, sends every peer that amount, and warns iff the balance is below the amount times the peers, which those sends total |
| SendTokens.NegativeAmountSent | tasks/vape-send-tokens.ts:186-196 | a negative fixed amount raises no shortfall warning, and every peer is sent that negative amount |
| SendTokens.FixedAmountTotal | tasks/vape-send-tokens.ts:186-197 | sends that each carry the fixed amount add up to the amount times the number of peers, the figure the balance is checked against |
| SendTokens.FullModeSendsWholeBalance | tasks/vape-send-tokens.ts:176-182 | if each earlier send took its share, the full-mode sends add up to the whole balance |
| SendTokens.SenderIsWired | tasks/vape-send-tokens.ts:61-64 | the sending contract is the one the wire generator places on the current network |
| SendTokens.PeersAreConnected | tasks/vape-send-tokens.ts:111-114 | every peer is joined to the current network by a pathway of the wire graph |

## Left out

- `generateConnectionsConfig` belongs to an external package. The model stops at its input, the list of two-way pathways.
- Real `EndpointId` numbers come from an external package. Distinct abstract constants stand in for them.
- `logNetworkInfo` and its cache print to the console only.
- Console output, emojis, the table rendering of the validate task, and the usage text of `getDeployConfig` are all left out. The structured error values carry the same information.
- File-system reads and JSON parsing are not modelled. A directory listing arrives as a sequence of directories. A file arrives as its name plus one of three contents: unparsable, `null`, or a parsed value with its `address` (absent when undefined). Reading `address` from any other JSON value gives `undefined` without throwing, so those values fall under the third case.
- RPC calls are not modelled. This covers `quoteSend`, `send`, balance reads, approvals, signer lookup and the native-fee check. Their results are inputs: the balance, the re-read last balance, and the deployed contract names. The model produces the send parameters; it does not model whether a send succeeds.
- `parseUnits` and `parseInt` are not modelled. The send task receives the parsed amount and the parsed id list. The amount is `None` when parsing throws, and negative for an amount with a leading `-`, which `parseUnits` accepts. An id that does not parse (`NaN`) never equals a peer, so it is left out of the list.
- The comma split and trim of `filterNetworks` in the validate task is not modelled. The list arrives already split.
- The `MARKET_PAIR` save and restore around the send task is environment plumbing and is left out.
- The wrapper tasks, `validate-config`, the deploy scripts, the legacy static configs and `hardhat.config.ts` hold no logic beyond what is modelled here.
- Keys inherited from JavaScript's object prototype (`Tokens['constructor']`, a market pair named `__proto__`) are not modelled. The registry and groups hold only their own keys.
- Strings.Sort orders by character. JavaScript's `sort` compares UTF-16 code units, which differs only for characters outside the Basic Multilingual Plane.
- ValidateDeployments.AllOutcomes: the groups come pair by pair in first-seen order, but the contract does not state the order. For an integer-like market pair the source visits its groups first, in numeric order.
- DeployUtils.GetDeployConfig: `process.exit(1)` becomes a `Failure`, so the model returns where the program would end.

=== FILE: config_invariants.dfy ===
/** Facts that tie the static tables together: the registry's keys and
    entries, the hub/expansion invariant for every entry, and the coverage of
    every participating network by the confirmation and owner tables. */
module ConfigInvariants {
  import opened Wrappers
  import opened Types
  import opened LayerZero
  import opened Networks
  import opened Tokens
  import opened DeployUtils
  import opened Naming
  import opened WireGenerator

  /** The registry lists exactly WETH_USDC, WBTC_USDC and WETH_USDC_SG, in that order. */
  lemma RegistryKeys()
    ensures Keys(TOKENS) == ["WETH_USDC", "WBTC_USDC", "WETH_USDC_SG"]
  {
  }

  /** Within an entry both tokens share one hub and one expansion list. */
  predicate SharedTopology(c: MarketPairConfig) {
    c.gm.hubNetwork.eid == c.glv.hubNetwork.eid && c.gm.expansionNetworks == c.glv.expansionNetworks
  }

  /** Every registry entry passes the hub/expansion check, shares its topology
      between GM and GLV, and sits on the hub and expansion list of its stage. */
  lemma RegistryEntriesValid()
    ensures forall e :: e in TOKENS ==> ValidateHubNetworksNotInExpansion(e.1).Success?
    ensures forall e :: e in TOKENS ==> SharedTopology(e.1)
    ensures forall t :: WETH_USDC.Get(t).HubEid() == ARBITRUM_V2_MAINNET && WETH_USDC.Get(t).expansionNetworks == Some(EXPANSION_MAINNET)
    ensures forall t :: WBTC_USDC.Get(t).HubEid() == ARBITRUM_V2_MAINNET && WBTC_USDC.Get(t).expansionNetworks == Some(EXPANSION_MAINNET)
    ensures forall t :: WETH_USDC_SG.Get(t).HubEid() == ARBSEP_V2_TESTNET && WETH_USDC_SG.Get(t).expansionNetworks == Some(EXPANSION_TESTNET)
  {
    ExpansionNetworksWellFormed();
    forall e | e in TOKENS ensures ValidateHubNetworksNotInExpansion(e.1).Success? {
      assert forall h, l :: !HubListed(e.1, h, l);
    }
  }

  /** Every hub and expansion network of every entry has a confirmation depth and an owner. */
  lemma RegistryNetworksConfigured()
    ensures forall e, t :: e in TOKENS ==> Configured(e.1.Get(t).HubEid())
    ensures forall e, t, eid :: e in TOKENS && eid in e.1.Get(t).ExpansionOrEmpty() ==> Configured(eid)
  {
    ExpansionNetworksConfigured();
  }

  /** When every contract's network is in both tables, every contract gets an
      owner and every pathway both confirmation depths. */
  lemma WiringFullyConfigured(points: seq<OmniPoint>, dvns: DvnConfig, hubEid: Eid)
    requires forall k :: 0 <= k < |points| ==> Configured(points[k].eid)
    ensures forall k :: 0 <= k < |points| ==> CreateContracts(points)[k].owner.Some?
    ensures var r := CreatePathways(points, dvns, hubEid);
      forall k :: 0 <= k < |r| ==> r[k].confirmations.0.Some? && r[k].confirmations.1.Some?
  {
    var r := CreatePathways(points, dvns, hubEid);
    forall k | 0 <= k < |r| ensures r[k].confirmations.0.Some? && r[k].confirmations.1.Some? {
      PathwaysJoinEarlierToLater(points, dvns, hubEid, k);
    }
  }

  /** The contracts of a token whose hub and expansion networks are all in both tables. */
  lemma ParticipantsConfigured(ct: ContractType, key: string, tc: TokenConfig, t: TokenType)
    requires tc.expansionNetworks.Some?
    requires Configured(tc.HubEid())
    requires forall e :: e in tc.expansionNetworks.value ==> Configured(e)
    ensures var points := ParticipantPoints(ct, key, tc.HubEid(), Participants(t, tc).value);
      forall k :: 0 <= k < |points| ==> Configured(points[k].eid)
  {
    var eids := Participants(t, tc).value;
    var points := ParticipantPoints(ct, key, tc.HubEid(), eids);
    forall k | 0 <= k < |points| ensures Configured(points[k].eid) {
      assert points[k].eid == Eids(points)[k] == eids[k];
      if k > 0 {
        assert eids[k] == eids[1..][k - 1];
      }
    }
  }

  /** Every contract of the graph has an owner and every pathway both confirmation depths. */
  predicate FullyConfigured(g: WireGraph) {
    && (forall k :: 0 <= k < |g.contracts| ==> g.contracts[k].owner.Some?)
    && (forall k :: 0 <= k < |g.connections| ==>
          g.connections[k].confirmations.0.Some? && g.connections[k].confirmations.1.Some?)
  }

  /** Wiring a registered, valid entry whose networks are all configured succeeds,
      with one contract per participant and one pathway per pair of them, every
      contract with an owner and every pathway with both confirmation depths. */
  lemma EntryWiresCompletely(key: string, cfg: MarketPairConfig, ct: ContractType, dvns: DvnConfig, reg: Registry)
    requires key != "" && Lookup(reg, key) == Some(cfg)
    requires ValidateHubNetworksNotInExpansion(cfg).Success?
    requires cfg.Get(Category(ct)).expansionNetworks.Some?
    requires Configured(cfg.Get(Category(ct)).HubEid())
    requires forall e :: e in cfg.Get(Category(ct)).expansionNetworks.value ==> Configured(e)
    ensures var r := GenerateWireConfig(ct, dvns, "", None, key, reg);
      var n := 1 + |cfg.Get(Category(ct)).expansionNetworks.value|;
      && r.Success?
      && |r.value.contracts| == n
      && |r.value.connections| == n * (n - 1) / 2
      && FullyConfigured(r.value)
    // the contracts are the hub's adapter and then the expansion networks' OFTs,
    // and every two of them are joined by exactly the pathways of the graph
    ensures var r := GenerateWireConfig(ct, dvns, "", None, key, reg);
      var tc := cfg.Get(Category(ct));
      var eids := [tc.HubEid()] + tc.expansionNetworks.value;
      && r.Success?
      && (forall k :: 0 <= k < |r.value.contracts| ==>
            r.value.contracts[k].contract == OmniPoint(eids[k], ContractName(ct, if eids[k] == tc.HubEid() then Adapter else OFT, key)))
      && JoinsEveryPair(r.value)
  {
    assert GetDeployConfig(key, reg) == Success(DeployConfig(key, cfg));
    var t := Category(ct);
    var tc := cfg.Get(t);
    ParticipantsConfigured(ct, key, tc, t);
    var points := ParticipantPoints(ct, key, tc.HubEid(), Participants(t, tc).value);
    WiringFullyConfigured(points, dvns, tc.HubEid());
    assert GenerateWireConfig(ct, dvns, "", None, key, reg)
      == Success(WireGraph(CreateContracts(points), CreatePathways(points, dvns, tc.HubEid())));
  }

  /** A registered entry is valid, and its hub and expansion networks are all configured. */
  lemma RegisteredEntry(key: string) returns (cfg: MarketPairConfig, exp: seq<Eid>)
    requires key in Keys(TOKENS)
    ensures key != "" && Lookup(TOKENS, key) == Some(cfg)
    ensures ValidateHubNetworksNotInExpansion(cfg).Success?
    ensures forall t :: cfg.Get(t).expansionNetworks == Some(exp) && Configured(cfg.Get(t).HubEid())
    ensures forall e :: e in exp ==> Configured(e)
    ensures |exp| == if key == "WETH_USDC_SG" then 1 else 5
  {
    assert key == "WETH_USDC" || key == "WBTC_USDC" || key == "WETH_USDC_SG";
    cfg := if key == "WETH_USDC" then WETH_USDC else if key == "WBTC_USDC" then WBTC_USDC else WETH_USDC_SG;
    exp := if key == "WETH_USDC_SG" then EXPANSION_TESTNET else EXPANSION_MAINNET;
    assert Lookup(TOKENS, key) == Some(cfg);
    assert (key, cfg) in TOKENS;
    RegistryEntriesValid();
    ExpansionNetworksConfigured();
  }

  /** Wiring a registered pair selected through `MARKET_PAIR` succeeds: six
      contracts and fifteen pathways on mainnet, two and one on testnet, every two
      contracts joined, every contract with an owner and every pathway with both
      confirmation depths. */
  lemma RegistryWiresCompletely(key: string, ct: ContractType, dvns: DvnConfig)
    requires key in Keys(TOKENS)
    ensures var r := GenerateWireConfig(ct, dvns, "", None, key, TOKENS);
      && r.Success?
      && |r.value.contracts| == (if key == "WETH_USDC_SG" then 2 else 6)
      && |r.value.connections| == (if key == "WETH_USDC_SG" then 1 else 15)
      && FullyConfigured(r.value)
      && JoinsEveryPair(r.value)
  {
    var cfg, exp := RegisteredEntry(key);
    EntryWiresCompletely(key, cfg, ct, dvns, TOKENS);
    var n := 1 + |exp|;
    if key == "WETH_USDC_SG" {
      assert n == 2 && n * (n - 1) / 2 == 1;
    } else {
      assert n == 6 && n * (n - 1) / 2 == 15;
    }
  }
}

=== FILE: deploy_utils.dfy ===
/** Market-pair selection, the hub/expansion invariant check, and the
    hub/spoke role predicates used by the deploy scripts and tasks. */
module DeployUtils {
  import opened Wrappers
  import opened Types
  import opened Tokens
  import Seqs

  /** Why no market pair could be selected; both carry the valid keys. */
  datatype DeployConfigError =
    | MarketPairNotFound(key: string, available: seq<string>)
    | MarketPairNotSet(available: seq<string>)

  /** The market-pair selection by the `MARKET_PAIR` variable `env`
      (the empty string standing for an unset variable). */
  function GetDeployConfig(env: string, reg: Registry): (r: Result<DeployConfig, DeployConfigError>)
    ensures r.Success? <==> env != "" && env in Keys(reg)
    ensures r.Success? ==> r.value.marketPairKey == env && (env, r.value.marketPairConfig) in reg
    ensures r.Failure? ==> r.error.available == Keys(reg)
    ensures r.Failure? ==> (r.error.MarketPairNotSet? <==> env == "")
  {
    if env != "" then
      match Lookup(reg, env)
      case Some(config) => Success(DeployConfig(env, config))
      case None => Failure(MarketPairNotFound(env, Keys(reg)))
    else
      Failure(MarketPairNotSet(Keys(reg)))
  }

  /** `isHubInNetworks`: the token type's hub is among `eids`. */
  function IsHubInNetworks(c: MarketPairConfig, t: TokenType, eids: seq<Eid>): (r: bool)
    ensures r <==> c.Get(t).HubEid() in eids
  {
    Seqs.Includes(eids, c.Get(t).HubEid())
  }

  /** One violated check: the hub of `hubRole` is listed among the
      expansion networks of `listRole`. */
  datatype HubViolation = HubInExpansion(hubRole: TokenType, hubEid: Eid, listRole: TokenType)

  /** The hub of `hubRole` appears in the (possibly missing) expansion list of `listRole`. */
  predicate HubListed(c: MarketPairConfig, hubRole: TokenType, listRole: TokenType) {
    c.Get(hubRole).HubEid() in c.Get(listRole).ExpansionOrEmpty()
  }

  /** The four checks of `validateHubNetworksNotInExpansion`, all evaluated,
      one entry per violated check, in the order GLV-in-GLV, GM-in-GLV,
      GLV-in-GM, GM-in-GM. */
  function ValidationErrors(c: MarketPairConfig): (errs: seq<HubViolation>)
    ensures forall v :: v in errs <==> v.hubEid == c.Get(v.hubRole).HubEid() && HubListed(c, v.hubRole, v.listRole)
    ensures forall h, l :: HubListed(c, h, l) <==> HubInExpansion(h, c.Get(h).HubEid(), l) in errs
    ensures Seqs.NoDuplicates(errs)
  {
    var glvHub := c.glv.HubEid();
    var gmHub := c.gm.HubEid();
    var glvExpansion := c.glv.ExpansionOrEmpty();
    var gmExpansion := c.gm.ExpansionOrEmpty();
    (if Seqs.Includes(glvExpansion, glvHub) then [HubInExpansion(GLV, glvHub, GLV)] else [])
    + (if Seqs.Includes(glvExpansion, gmHub) then [HubInExpansion(GM, gmHub, GLV)] else [])
    + (if Seqs.Includes(gmExpansion, glvHub) then [HubInExpansion(GLV, glvHub, GM)] else [])
    + (if Seqs.Includes(gmExpansion, gmHub) then [HubInExpansion(GM, gmHub, GM)] else [])
  }

  /** `validateHubNetworksNotInExpansion`: fails, carrying every violation,
      exactly when some hub is listed as an expansion network of either token. */
  function ValidateHubNetworksNotInExpansion(c: MarketPairConfig): (r: Result<(), seq<HubViolation>>)
    ensures r.Failure? <==> exists h, l :: HubListed(c, h, l)
    ensures r.Failure? ==> r.error == ValidationErrors(c) && |r.error| >= 1
  {
    var errs := ValidationErrors(c);
    if |errs| > 0 then
      Failure(errs)
    else
      assert forall h, l :: !HubListed(c, h, l) by {
        forall h, l ensures !HubListed(c, h, l) {
          assert HubInExpansion(h, c.Get(h).HubEid(), l) !in errs;
        }
      }
      Success(())
  }

  /** An undefined expansion list is read as an empty one: it can hold no hub. */
  lemma MissingExpansionIsEmpty(c: MarketPairConfig, listRole: TokenType)
    requires c.Get(listRole).expansionNetworks == None
    ensures forall h :: !HubListed(c, h, listRole)
    ensures forall v :: v in ValidationErrors(c) ==> v.listRole != listRole
  {
  }

  /** `shouldDeployToNetwork`: `eid` is a hub or an expansion network of either token. */
  function ShouldDeployToNetwork(c: MarketPairConfig, eid: Eid): (r: bool)
    ensures r <==> exists t :: eid == c.Get(t).HubEid() || eid in c.Get(t).ExpansionOrEmpty()
  {
    var isGlvHub := c.glv.HubEid() == eid;
    var isGmHub := c.gm.HubEid() == eid;
    var isGlvExpansion := c.glv.expansionNetworks.Some? && Seqs.Includes(c.glv.expansionNetworks.value, eid);
    var isGmExpansion := c.gm.expansionNetworks.Some? && Seqs.Includes(c.gm.expansionNetworks.value, eid);
    assert isGlvHub || isGlvExpansion <==> eid == c.Get(GLV).HubEid() || eid in c.Get(GLV).ExpansionOrEmpty();
    assert isGmHub || isGmExpansion <==> eid == c.Get(GM).HubEid() || eid in c.Get(GM).ExpansionOrEmpty();
    isGlvHub || isGmHub || isGlvExpansion || isGmExpansion
  }

  /** Every hub is a deployment target. */
  lemma HubsAreDeployTargets(c: MarketPairConfig, t: TokenType)
    ensures ShouldDeployToNetwork(c, c.Get(t).HubEid())
  {
  }

  /** `isHubNetwork`: `eid` is the token type's hub. */
  function IsHubNetwork(c: MarketPairConfig, t: TokenType, eid: Eid): (r: bool)
    ensures r <==> IsHubInNetworks(c, t, [eid])
  {
    c.Get(t).HubEid() == eid
  }

  /** Why `getContractAddress` found no address: it knows only the hub's. */
  datatype AddressError = NoContractAddress(tokenType: TokenType, eid: Eid, hubEid: Eid)

  /** `getContractAddress`: the hub's configured address on the hub, an error everywhere else. */
  function GetContractAddress(c: MarketPairConfig, t: TokenType, eid: Eid): (r: Result<string, AddressError>)
    ensures r.Success? <==> IsHubNetwork(c, t, eid)
    ensures r.Success? ==> r.value == c.Get(t).hubNetwork.contractAddress
    ensures r.Failure? ==> r.error == NoContractAddress(t, eid, c.Get(t).HubEid())
  {
    var tokenConfig := c.Get(t);
    if tokenConfig.HubEid() == eid then
      Success(tokenConfig.hubNetwork.contractAddress)
    else
      Failure(NoContractAddress(t, eid, tokenConfig.HubEid()))
  }
}

=== FILE: deployment_files.dfy ===
/** The parts the display and validate tasks share: which files of a
    deployment directory are considered, which network directories a stage
    flag keeps, and the grouping of parsed deployments by market pair and
    token category, in first-seen order as a JavaScript object keeps them. */
module DeploymentFiles {
  import opened Wrappers
  import opened Types
  import opened Strings
  import opened Naming
  import Seqs

  /** What reading a deployment file gives: `JSON.parse` throws, or it yields
      `null` (reading its `address` then throws), or it yields a value whose
      `address` may be undefined. */
  datatype FileContent = Unparsable | ParsedNull | Parsed(address: Option<string>)

  /** A file of a network's deployment directory. */
  datatype DeploymentFile = DeploymentFile(name: string, content: FileContent)

  /** A network's deployment directory. */
  datatype NetworkDir = NetworkDir(name: string, files: seq<DeploymentFile>)

  /** The file filter of both tasks: a `.json` file whose name nowhere mentions `solcInputs`. */
  predicate IsCandidateFile(file: string): (r: bool)
    ensures r <==> EndsWith(file, JSON_SUFFIX) && !exists i :: OccursAt(file, "solcInputs", i)
  {
    EndsWith(file, JSON_SUFFIX) && !Contains(file, "solcInputs")
  }

  /** A file whose name mentions `solcInputs` is never considered, whatever it is called. */
  lemma SolcInputsNeverConsidered(file: string)
    requires exists i :: OccursAt(file, "solcInputs", i)
    ensures !IsCandidateFile(file)
  {
  }

  /** The `--mainnet` / `--testnet` network filter: mainnet names mention
      `mainnet` and not `testnet`; testnet names mention `testnet`. */
  predicate StageFilter(mainnet: bool, testnet: bool, network: string): (r: bool)
    ensures mainnet ==> (r <==> (exists i :: OccursAt(network, "mainnet", i)) && !(exists i :: OccursAt(network, "testnet", i)))
    ensures !mainnet && testnet ==> (r <==> exists i :: OccursAt(network, "testnet", i))
    ensures !mainnet && !testnet ==> r
  {
    if mainnet then Contains(network, "mainnet") && !Contains(network, "testnet")
    else if testnet then Contains(network, "testnet")
    else true
  }

  /** No network passes both the mainnet and the testnet filter. */
  lemma StagesDisjoint(network: string)
    ensures !(StageFilter(true, false, network) && StageFilter(false, true, network))
  {
  }

  /** The deployments of one market pair, by token category. */
  datatype Buckets<T> = Buckets(gm: seq<T>, glv: seq<T>) {
    function Of(t: TokenType): seq<T> {
      if t == GM then gm else glv
    }

    function Push(t: TokenType, x: T): (r: Buckets<T>)
      ensures r.Of(t) == Of(t) + [x]
      ensures r.Of(if t == GM then GLV else GM) == Of(if t == GM then GLV else GM)
    {
      if t == GM then Buckets(gm + [x], glv) else Buckets(gm, glv + [x])
    }

    function Size(): nat {
      |gm| + |glv|
    }
  }

  /** `grouped`: market pair to buckets, in the order the pairs were first seen. */
  type Grouped<T> = seq<(string, Buckets<T>)>

  /** The market pairs in first-seen order. */
  function Pairs<T>(g: Grouped<T>): seq<string> {
    Seqs.Firsts(g)
  }

  predicate UniquePairs<T>(g: Grouped<T>) {
    forall i, j :: 0 <= i < j < |g| ==> g[i].0 != g[j].0
  }

  /** `grouped[pair][t]`, empty for a pair not seen. */
  function BucketOf<T>(g: Grouped<T>, pair: string, t: TokenType): seq<T> {
    if |g| == 0 then []
    else if g[0].0 == pair then g[0].1.Of(t)
    else BucketOf(g[1..], pair, t)
  }

  /** `if (!grouped[pair]) grouped[pair] = { GM: [], GLV: [] }`. */
  function Touch<T>(g: Grouped<T>, pair: string): (r: Grouped<T>)
    requires UniquePairs(g)
    ensures UniquePairs(r)
    ensures Pairs(r) == if pair in Pairs(g) then Pairs(g) else Pairs(g) + [pair]
    ensures forall p, t :: BucketOf(r, p, t) == BucketOf(g, p, t)
    ensures Total(r) == Total(g)
  {
    if pair in Pairs(g) then g
    else
      var r := g + [(pair, Buckets([], []))];
      assert Pairs(r) == Pairs(g) + [pair];
      BucketOfAppendNew(g, pair);
      TotalAppend(g, (pair, Buckets([], [])));
      r
  }

  /** Opens the group of each of `pairs` in turn, leaving every bucket as it was. */
  function TouchAll<T>(g: Grouped<T>, pairs: seq<string>): (r: Grouped<T>)
    requires UniquePairs(g)
    ensures UniquePairs(r)
    ensures forall p :: p in Pairs(r) <==> p in Pairs(g) || p in pairs
    ensures forall p, t :: BucketOf(r, p, t) == BucketOf(g, p, t)
    ensures Total(r) == Total(g)
    decreases |pairs|
  {
    if |pairs| == 0 then g
    else
      assert forall p :: p in pairs <==> p == pairs[0] || p in pairs[1..] by {
        assert pairs == [pairs[0]] + pairs[1..];
      }
      TouchAll(Touch(g, pairs[0]), pairs[1..])
  }

  /** `grouped[pair][t].push(x)` on a pair already present. */
  function Push<T>(g: Grouped<T>, pair: string, t: TokenType, x: T): (r: Grouped<T>)
    requires UniquePairs(g) && pair in Pairs(g)
    ensures UniquePairs(r)
    ensures Pairs(r) == Pairs(g)
    ensures forall p, t' :: BucketOf(r, p, t') == BucketOf(g, p, t') + (if p == pair && t' == t then [x] else [])
    ensures Total(r) == Total(g) + 1
  {
    assert g[0].0 == pair || pair in Pairs(g[1..]);
    if g[0].0 == pair then
      assert pair !in Pairs(g[1..]);
      [(pair, g[0].1.Push(t, x))] + g[1..]
    else
      var rest := Push(g[1..], pair, t, x);
      assert Pairs(rest) == Pairs(g[1..]);
      var r := [g[0]] + rest;
      assert r[1..] == rest;
      r
  }

  /** The number of deployments grouped: the reported contract total. */
  function Total<T>(g: Grouped<T>): nat {
    if |g| == 0 then 0 else g[0].1.Size() + Total(g[1..])
  }

  lemma {:induction false} TotalAppend<T>(g: Grouped<T>, e: (string, Buckets<T>))
    ensures Total(g + [e]) == Total(g) + e.1.Size()
  {
    if |g| > 0 {
      assert (g + [e])[1..] == g[1..] + [e];
      TotalAppend(g[1..], e);
    }
  }

  lemma {:induction false} BucketOfAppendNew<T>(g: Grouped<T>, pair: string)
    requires pair !in Pairs(g)
    ensures forall p, t :: BucketOf(g + [(pair, Buckets([], []))], p, t) == BucketOf(g, p, t)
  {
    if |g| > 0 {
      assert (g + [(pair, Buckets([], []))])[1..] == g[1..] + [(pair, Buckets([], []))];
      assert pair !in Pairs(g[1..]);
      BucketOfAppendNew(g[1..], pair);
    }
  }

  /** A parsed deployment: where its file was found and what its name says. */
  datatype Entry<T> = Entry(pair: string, category: TokenType, info: T)

  /** The market pair of every entry, in order. */
  function PairsOf<T>(es: seq<Entry<T>>): (r: seq<string>)
    ensures |r| == |es|
    ensures forall k :: 0 <= k < |es| ==> r[k] == es[k].pair
  {
    seq(|es|, k requires 0 <= k < |es| => es[k].pair)
  }

  /** The body of the grouping loop for one entry: open its pair's group if
      needed, then push the entry into the bucket of its category. */
  function AddEntry<T>(g: Grouped<T>, e: Entry<T>): (r: Grouped<T>)
    requires UniquePairs(g)
    ensures UniquePairs(r)
    ensures Pairs(r) == if e.pair in Pairs(g) then Pairs(g) else Pairs(g) + [e.pair]
    ensures Total(r) == Total(g) + 1
    ensures forall p, t :: BucketOf(r, p, t) == BucketOf(g, p, t) + (if e.pair == p && e.category == t then [e.info] else [])
  {
    Push(Touch(g, e.pair), e.pair, e.category, e.info)
  }

  /** Group entries in order: each lands in the bucket of its pair and category,
      and the pairs are listed once each, in the order they were first seen. */
  function GroupEntries<T>(es: seq<Entry<T>>): (g: Grouped<T>)
    ensures UniquePairs(g)
    ensures Pairs(g) == Seqs.Dedup(PairsOf(es))
    ensures forall p :: p in Pairs(g) <==> exists k :: 0 <= k < |es| && es[k].pair == p
    ensures Total(g) == |es|
    ensures forall p, t :: BucketOf(g, p, t) == Select(es, p, t)
  {
    PairsOfMembers(es);
    if |es| == 0 then []
    else
      var init := es[..|es| - 1];
      var e := es[|es| - 1];
      assert es == init + [e];
      var g0 := GroupEntries(init);
      GroupStep(init, e, g0);
      AddEntry(g0, e)
  }

  /** One step of the grouping keeps the grouping of the entries seen so far. */
  lemma GroupStep<T>(init: seq<Entry<T>>, e: Entry<T>, g0: Grouped<T>)
    requires UniquePairs(g0) && Pairs(g0) == Seqs.Dedup(PairsOf(init)) && Total(g0) == |init|
    requires forall p, t :: BucketOf(g0, p, t) == Select(init, p, t)
    ensures var g := AddEntry(g0, e);
      && Pairs(g) == Seqs.Dedup(PairsOf(init + [e]))
      && forall p, t :: BucketOf(g, p, t) == Select(init + [e], p, t)
  {
    SelectSnoc(init, e);
    DedupPairsSnoc(init, e);
  }

  lemma DedupPairsSnoc<T>(init: seq<Entry<T>>, e: Entry<T>)
    ensures var d := Seqs.Dedup(PairsOf(init));
      Seqs.Dedup(PairsOf(init + [e])) == if e.pair in d then d else d + [e.pair]
  {
    var es := init + [e];
    assert PairsOf(es)[..|es| - 1] == PairsOf(init);
  }

  lemma PairsOfMembers<T>(es: seq<Entry<T>>)
    ensures forall p :: p in PairsOf(es) <==> exists k :: 0 <= k < |es| && es[k].pair == p
  {
    forall p | exists k :: 0 <= k < |es| && es[k].pair == p ensures p in PairsOf(es) {
      var k :| 0 <= k < |es| && es[k].pair == p;
      assert PairsOf(es)[k] == p;
    }
  }

  /** The reference definition: the infos of the entries with this pair and category, in order. */
  function Select<T>(es: seq<Entry<T>>, pair: string, t: TokenType): seq<T> {
    if |es| == 0 then []
    else (if es[0].pair == pair && es[0].category == t then [es[0].info] else []) + Select(es[1..], pair, t)
  }

  lemma {:induction false} SelectSnoc<T>(es: seq<Entry<T>>, e: Entry<T>)
    ensures forall p, t :: Select(es + [e], p, t) == Select(es, p, t) + (if e.pair == p && e.category == t then [e.info] else [])
  {
    if |es| > 0 {
      assert (es + [e])[1..] == es[1..] + [e];
      SelectSnoc(es[1..], e);
    }
  }

  lemma {:induction false} SelectAppend<T>(a: seq<Entry<T>>, b: seq<Entry<T>>)
    ensures forall p, t :: Select(a + b, p, t) == Select(a, p, t) + Select(b, p, t)
  {
    if |a| > 0 {
      assert (a + b)[1..] == a[1..] + b;
      SelectAppend(a[1..], b);
    } else {
      assert a + b == b;
    }
  }

  /** A pair never opened has empty buckets. */
  lemma {:induction false} BucketOfAbsent<T>(g: Grouped<T>, pair: string, t: TokenType)
    requires pair !in Pairs(g)
    ensures BucketOf(g, pair, t) == []
  {
    if |g| > 0 {
      assert Pairs(g)[1..] == Pairs(g[1..]);
      BucketOfAbsent(g[1..], pair, t);
    }
  }

  lemma UniqueTail<T>(g: Grouped<T>)
    requires UniquePairs(g) && |g| > 0
    ensures UniquePairs(g[1..])
    ensures g[0].0 !in Pairs(g[1..])
  {
    forall i, j | 0 <= i < j < |g[1..]| ensures g[1..][i].0 != g[1..][j].0 {
      assert g[1..][i] == g[i + 1] && g[1..][j] == g[j + 1];
    }
    forall k | 0 <= k < |g[1..]| ensures Pairs(g[1..])[k] != g[0].0 {
      assert g[1..][k] == g[k + 1];
    }
  }

  /** `grouped[pair][t]` as the task reads it: the bucket of a seen pair. */
  lemma BucketOfSeen<T>(g: Grouped<T>, pair: string, t: TokenType, k: nat)
    requires UniquePairs(g) && k < |g| && g[k].0 == pair
    ensures BucketOf(g, pair, t) == g[k].1.Of(t)
  {
    if k > 0 {
      BucketOfSeen(g[1..], pair, t, k - 1);
    }
  }
}

=== FILE: display_deployments.dfy ===
/** The pure part of the display task: choose network directories, parse the
    deployment file names, group the deployments by market pair and token
    category, and report the pairs in sorted order with the contract total. */
module DisplayDeployments {
  import opened Wrappers
  import opened Types
  import opened Strings
  import opened Naming
  import opened DeploymentFiles
  import Seqs

  /** One listed deployment. */
  datatype DeploymentInfo = DeploymentInfo(network: string, address: Option<string>, contractType: ContractRole)

  /** The network filter: an explicit `--filter-networks` name wins, then
      `--mainnet`, then `--testnet`; with none of them every network is kept.
      The empty string stands for an absent name, as JavaScript reads it. */
  predicate KeepNetwork(filterNetworks: string, mainnet: bool, testnet: bool, network: string): (r: bool)
    ensures filterNetworks != "" ==> (r <==> network == filterNetworks)
    ensures filterNetworks == "" && mainnet ==>
      (r <==> (exists i :: OccursAt(network, "mainnet", i)) && !(exists i :: OccursAt(network, "testnet", i)))
    ensures filterNetworks == "" && !mainnet && testnet ==> (r <==> exists i :: OccursAt(network, "testnet", i))
    ensures filterNetworks == "" && !mainnet && !testnet ==> r
  {
    if filterNetworks != "" then network == filterNetworks
    else StageFilter(mainnet, testnet, network)
  }

  /** The network directories the task scans, in directory order. */
  function KeptDirs(dirs: seq<NetworkDir>, filterNetworks: string, mainnet: bool, testnet: bool): (r: seq<NetworkDir>)
    ensures forall d :: d in r <==> d in dirs && KeepNetwork(filterNetworks, mainnet, testnet, d.name)
  {
    Seqs.Filter(dirs, (d: NetworkDir) => KeepNetwork(filterNetworks, mainnet, testnet, d.name))
  }

  /** A file whose market pair the task lists: a candidate `.json` that parses
      as JSON, possibly to `null`, with a matching name. */
  predicate Opens(f: DeploymentFile) {
    IsCandidateFile(f.name) && !f.content.Unparsable? && ParseDeploymentFileName(f.name).Some?
  }

  /** The market pair a file's name carries. */
  function PairOf(f: DeploymentFile): string
    requires Opens(f)
  {
    ParseDeploymentFileName(f.name).value.marketPair
  }

  /** A file the task lists a deployment for: it opens its pair, and its content
      is not `null`, so its `address` can be read. */
  predicate Accepted(f: DeploymentFile) {
    IsCandidateFile(f.name) && f.content.Parsed? && ParseDeploymentFileName(f.name).Some?
  }

  /** A file whose content is `null`: its pair's group is opened, then reading
      `address` throws and the file adds no deployment. */
  predicate OpensOnly(f: DeploymentFile) {
    Opens(f) && f.content.ParsedNull?
  }

  /** Some file of `dirs` opens `pair`. */
  ghost predicate Listed(dirs: seq<NetworkDir>, pair: string) {
    exists d, f :: d in dirs && f in d.files && Opens(f) && PairOf(f) == pair
  }

  /** The entry an accepted file contributes. */
  function EntryOf(network: string, f: DeploymentFile): Entry<DeploymentInfo>
    requires Accepted(f)
  {
    var p := ParseDeploymentFileName(f.name).value;
    Entry(p.marketPair, Category(p.contractType), DeploymentInfo(network, f.content.address, p.role))
  }

  /** The loop over one directory's files: skip what is not accepted, keep the rest in order. */
  function FileEntries(network: string, files: seq<DeploymentFile>): (r: seq<Entry<DeploymentInfo>>)
    ensures |r| == |Seqs.Filter(files, Accepted)|
    ensures forall k :: 0 <= k < |r| ==>
      Seqs.Filter(files, Accepted)[k] in files && r[k] == EntryOf(network, Seqs.Filter(files, Accepted)[k])
    ensures forall e :: e in r <==> exists f :: f in files && Accepted(f) && e == EntryOf(network, f)
  {
    if |files| == 0 then []
    else
      var rest := FileEntries(network, files[1..]);
      var head := if Accepted(files[0]) then [EntryOf(network, files[0])] else [];
      FileEntriesIndexed(network, files, head, rest);
      FileEntriesMembers(network, files, head, rest);
      head + rest
  }

  lemma FileEntriesIndexed(network: string, files: seq<DeploymentFile>, head: seq<Entry<DeploymentInfo>>, rest: seq<Entry<DeploymentInfo>>)
    requires |files| > 0
    requires head == if Accepted(files[0]) then [EntryOf(network, files[0])] else []
    requires |rest| == |Seqs.Filter(files[1..], Accepted)|
    requires forall k :: 0 <= k < |rest| ==>
      Seqs.Filter(files[1..], Accepted)[k] in files[1..] && rest[k] == EntryOf(network, Seqs.Filter(files[1..], Accepted)[k])
    ensures |head + rest| == |Seqs.Filter(files, Accepted)|
    ensures forall k :: 0 <= k < |head + rest| ==>
      Seqs.Filter(files, Accepted)[k] in files && (head + rest)[k] == EntryOf(network, Seqs.Filter(files, Accepted)[k])
  {
    var restAccepted := Seqs.Filter(files[1..], Accepted);
    assert forall k :: 0 <= k < |restAccepted| ==> restAccepted[k] in files[1..];
    if Accepted(files[0]) {
      assert Seqs.Filter(files, Accepted) == [files[0]] + restAccepted;
    }
  }

  lemma FileEntriesMembers(network: string, files: seq<DeploymentFile>, head: seq<Entry<DeploymentInfo>>, rest: seq<Entry<DeploymentInfo>>)
    requires |files| > 0
    requires head == if Accepted(files[0]) then [EntryOf(network, files[0])] else []
    requires forall e :: e in rest <==> exists f :: f in files[1..] && Accepted(f) && e == EntryOf(network, f)
    ensures forall e :: e in head + rest <==> exists f :: f in files && Accepted(f) && e == EntryOf(network, f)
  {
    assert forall f :: f in files <==> f == files[0] || f in files[1..] by {
      assert files == [files[0]] + files[1..];
    }
  }

  /** Every accepted file of every kept directory, directory by directory. */
  function DirEntries(dirs: seq<NetworkDir>): (r: seq<Entry<DeploymentInfo>>)
    ensures |r| == AcceptedCount(dirs)
    ensures forall e :: e in r <==> exists d, f :: d in dirs && f in d.files && Accepted(f) && e == EntryOf(d.name, f)
  {
    if |dirs| == 0 then []
    else
      assert forall d :: d in dirs <==> d == dirs[0] || d in dirs[1..] by {
        assert dirs == [dirs[0]] + dirs[1..];
      }
      FileEntries(dirs[0].name, dirs[0].files) + DirEntries(dirs[1..])
  }

  /** The pairs of the `null`-content files of one directory, in file order. */
  function FileNullPairs(files: seq<DeploymentFile>): (r: seq<string>)
    ensures forall p :: p in r <==> exists f :: f in files && OpensOnly(f) && PairOf(f) == p
  {
    if |files| == 0 then []
    else
      assert forall f :: f in files <==> f == files[0] || f in files[1..] by {
        assert files == [files[0]] + files[1..];
      }
      (if OpensOnly(files[0]) then [PairOf(files[0])] else []) + FileNullPairs(files[1..])
  }

  /** The pairs of the `null`-content files across `dirs`, directory by directory. */
  function NullPairs(dirs: seq<NetworkDir>): (r: seq<string>)
    ensures forall p :: p in r <==> exists d, f :: d in dirs && f in d.files && OpensOnly(f) && PairOf(f) == p
  {
    if |dirs| == 0 then []
    else
      assert forall d :: d in dirs <==> d == dirs[0] || d in dirs[1..] by {
        assert dirs == [dirs[0]] + dirs[1..];
      }
      FileNullPairs(dirs[0].files) + NullPairs(dirs[1..])
  }

  /** How many files across `dirs` are accepted. */
  function AcceptedCount(dirs: seq<NetworkDir>): nat {
    if |dirs| == 0 then 0 else |Seqs.Filter(dirs[0].files, Accepted)| + AcceptedCount(dirs[1..])
  }

  datatype DisplayError = NoDeploymentsDirectory | NoDeploymentsFound

  /** What the task prints: the market pairs in sorted order, their buckets, and the total. */
  datatype DisplayReport = DisplayReport(marketPairs: seq<string>, grouped: Grouped<DeploymentInfo>, totalContracts: nat)

  /** The display task on the directories of `deployments/` (`None`: no such directory).
      Groups opened by `null`-content files are appended after the others; the
      order of the groups is not observable, since the pairs are reported sorted. */
  function DisplayDeployments(deployments: Option<seq<NetworkDir>>, filterNetworks: string, mainnet: bool, testnet: bool)
    : (r: Result<DisplayReport, DisplayError>)
    ensures deployments.None? ==> r == Failure(NoDeploymentsDirectory)
    ensures r.Success? ==> (deployments.Some? &&
      var kept := KeptDirs(deployments.value, filterNetworks, mainnet, testnet);
      var es := DirEntries(kept);
      && r.value.totalContracts == AcceptedCount(kept)
      && Sorted(r.value.marketPairs)
      && multiset(r.value.marketPairs) == multiset(Pairs(r.value.grouped))
      && Seqs.NoDuplicates(r.value.marketPairs)
      && (forall p, t :: BucketOf(r.value.grouped, p, t) == Select(es, p, t)))
    ensures deployments.Some? && r.Failure? ==> r.error == NoDeploymentsFound
    // the task reports exactly when some kept directory holds a file that opens a pair
    ensures deployments.Some? ==> (r.Success? <==>
      exists d, f :: d in deployments.value && KeepNetwork(filterNetworks, mainnet, testnet, d.name)
                     && f in d.files && Opens(f))
    // the reported pairs are those of the kept files, including `null`-content ones
    ensures r.Success? ==>
      forall p :: p in r.value.marketPairs <==> Listed(KeptDirs(deployments.value, filterNetworks, mainnet, testnet), p)
  {
    match deployments
    case None => Failure(NoDeploymentsDirectory)
    case Some(dirs) =>
      var kept := KeptDirs(dirs, filterNetworks, mainnet, testnet);
      var es := DirEntries(kept);
      var grouped := TouchAll(GroupEntries(es), NullPairs(kept));
      var marketPairs := Sort(Pairs(grouped));
      ReportIffOpened(dirs, kept, es, grouped, marketPairs, filterNetworks, mainnet, testnet);
      if |marketPairs| == 0 then Failure(NoDeploymentsFound)
      else
        SortedUniquePairs(grouped, marketPairs);
        Success(DisplayReport(marketPairs, grouped, Total(grouped)))
  }

  /** The sorted pair list holds exactly the pairs the kept files open, so it is
      empty exactly when no kept directory holds such a file. */
  lemma ReportIffOpened(dirs: seq<NetworkDir>, kept: seq<NetworkDir>, es: seq<Entry<DeploymentInfo>>,
                        grouped: Grouped<DeploymentInfo>, marketPairs: seq<string>,
                        filterNetworks: string, mainnet: bool, testnet: bool)
    requires forall d :: d in kept <==> d in dirs && KeepNetwork(filterNetworks, mainnet, testnet, d.name)
    requires forall e :: e in es <==> exists d, f :: d in kept && f in d.files && Accepted(f) && e == EntryOf(d.name, f)
    requires forall p :: p in Pairs(grouped) <==> p in PairsOf(es) || p in NullPairs(kept)
    requires multiset(marketPairs) == multiset(Pairs(grouped))
    ensures forall p :: p in marketPairs <==> Listed(kept, p)
    ensures |marketPairs| == 0 <==>
      !exists d, f :: d in dirs && KeepNetwork(filterNetworks, mainnet, testnet, d.name) && f in d.files && Opens(f)
  {
    SameMembers(marketPairs, Pairs(grouped));
    forall p ensures p in marketPairs <==> Listed(kept, p) {
      EntryPairsListed(kept, es, p);
    }
    if d, f :| d in dirs && KeepNetwork(filterNetworks, mainnet, testnet, d.name) && f in d.files && Opens(f) {
      assert Listed(kept, PairOf(f));
      assert PairOf(f) in marketPairs;
    }
    if |marketPairs| > 0 {
      assert Listed(kept, marketPairs[0]);
    }
  }

  /** A pair is an entry's or a `null`-content file's exactly when some kept file opens it. */
  lemma EntryPairsListed(kept: seq<NetworkDir>, es: seq<Entry<DeploymentInfo>>, p: string)
    requires forall e :: e in es <==> exists d, f :: d in kept && f in d.files && Accepted(f) && e == EntryOf(d.name, f)
    ensures p in PairsOf(es) || p in NullPairs(kept) <==> Listed(kept, p)
  {
    PairsOfMembers(es);
    if p in PairsOf(es) {
      var k :| 0 <= k < |es| && es[k].pair == p;
      assert es[k] in es;
      var d, f :| d in kept && f in d.files && Accepted(f) && es[k] == EntryOf(d.name, f);
      assert Opens(f) && PairOf(f) == p;
    }
    if Listed(kept, p) {
      var d, f :| d in kept && f in d.files && Opens(f) && PairOf(f) == p;
      if f.content.Parsed? {
        var e := EntryOf(d.name, f);
        assert e in es;
        var k :| 0 <= k < |es| && es[k] == e;
        assert es[k].pair == p;
      } else {
        assert OpensOnly(f);
      }
    }
  }

  /** Two sequences with the same multiset have the same members and length. */
  lemma SameMembers(a: seq<string>, b: seq<string>)
    requires multiset(a) == multiset(b)
    ensures |a| == |b|
    ensures forall x :: x in a <==> x in b
  {
    assert |multiset(a)| == |multiset(b)|;
    forall x ensures x in a <==> x in b {
      assert x in a <==> x in multiset(a);
    }
  }

  lemma SortedUniquePairs<T>(g: Grouped<T>, s: seq<string>)
    requires UniquePairs(g) && multiset(s) == multiset(Pairs(g))
    ensures Seqs.NoDuplicates(s)
  {
    var ps := Pairs(g);
    assert Seqs.NoDuplicates(ps);
    forall i, j | 0 <= i < j < |s| ensures s[i] != s[j] {
      if s[i] == s[j] {
        var x := s[i];
        assert multiset(s)[x] >= 2 by {
          assert s == s[..i] + [x] + s[i + 1..j] + [x] + s[j + 1..];
        }
        NoDuplicatesCount(ps, x);
        assert false;
      }
    }
  }

  lemma {:induction false} NoDuplicatesCount(s: seq<string>, x: string)
    requires Seqs.NoDuplicates(s)
    ensures multiset(s)[x] <= 1
  {
    if |s| > 0 {
      assert s == [s[0]] + s[1..];
      assert Seqs.NoDuplicates(s[1..]) by {
        forall i, j | 0 <= i < j < |s[1..]| ensures s[1..][i] != s[1..][j] {
          assert s[1..][i] == s[i + 1] && s[1..][j] == s[j + 1];
        }
      }
      NoDuplicatesCount(s[1..], x);
      if s[0] == x {
        assert x !in s[1..] by {
          forall k | 0 <= k < |s[1..]| ensures s[1..][k] != x {
            assert s[1..][k] == s[k + 1];
          }
        }
      }
    }
  }
}

=== FILE: layerzero.dfy ===
/** The static messaging policy: enforced executor options per receiving side,
    and the DVN (verifier network) sets per deployment stage. */
module LayerZero {
  import opened Wrappers

  datatype ExecutorOptionType = LzReceive | Compose

  /** One enforced option: the minimum gas (and native value) the receiver
      requires for messages of `msgType`; `index` is the compose-call index. */
  datatype EnforcedOption = EnforcedOption(
    msgType: nat,
    optionType: ExecutorOptionType,
    index: Option<nat>,
    gas: nat,
    value: nat)

  /** Plain delivery: message type 1, receive gas 80_000. */
  const LZ_RECEIVE_OPTIONS: seq<EnforcedOption> :=
    [EnforcedOption(1, LzReceive, None, 80_000, 0)]

  /** Delivery followed by a compose call: message type 2, with a compose budget of 8_000_000. */
  const LZ_COMPOSE_OPTIONS: seq<EnforcedOption> :=
    [ EnforcedOption(2, LzReceive, None, 80_000, 0),
      EnforcedOption(2, Compose, Some(0), 8_000_000, 0) ]

  /** Options enforced on messages a spoke receives. */
  const TO_SPOKE: seq<EnforcedOption> := LZ_RECEIVE_OPTIONS

  /** Options enforced on messages the hub receives. */
  const TO_HUB: seq<EnforcedOption> := LZ_RECEIVE_OPTIONS + LZ_COMPOSE_OPTIONS

  /** The compose option of the hub policy. */
  const HUB_COMPOSE: EnforcedOption := EnforcedOption(2, Compose, Some(0), 8_000_000, 0)

  predicate HasCompose(opts: seq<EnforcedOption>) {
    exists k :: 0 <= k < |opts| && opts[k].optionType == Compose
  }

  /** An optional DVN set and how many of its members must attest. */
  datatype OptionalDvns = OptionalDvns(names: seq<string>, threshold: nat)

  /** `[requiredDVNs, [optionalDVNs, threshold]]`; an empty second component is `None`. */
  datatype DvnConfig = DvnConfig(required: seq<string>, optional: Option<OptionalDvns>)

  const TESTNET_DVNS: DvnConfig := DvnConfig(["LayerZero Labs"], None)

  const MAINNET_DVNS: DvnConfig :=
    DvnConfig(["LayerZero Labs", "Canary"], Some(OptionalDvns(["Deutsche Telekom", "Horizen"], 1)))

  /** `DVNConfigs`, keyed by stage name. */
  const DVN_CONFIGS: map<string, DvnConfig> := map["testnet" := TESTNET_DVNS, "mainnet" := MAINNET_DVNS]

  /** The spoke policy is a single type-1 receive option of 80_000 gas and no value. */
  lemma ToSpokeShape()
    ensures |TO_SPOKE| == 1
    ensures TO_SPOKE[0] == EnforcedOption(1, LzReceive, None, 80_000, 0)
    ensures !HasCompose(TO_SPOKE)
  {
  }

  /** The hub policy extends the spoke policy: three options, the spoke policy a strict prefix. */
  lemma ToHubExtendsToSpoke()
    ensures |TO_HUB| == 3
    ensures |TO_SPOKE| < |TO_HUB| && TO_HUB[..|TO_SPOKE|] == TO_SPOKE
  {
  }

  /** Only the hub policy carries the compose budget. */
  lemma ComposeOnlyToHub()
    ensures HUB_COMPOSE in TO_HUB && HUB_COMPOSE !in TO_SPOKE
    ensures HasCompose(TO_HUB) && !HasCompose(TO_SPOKE)
    ensures TO_HUB != TO_SPOKE
  {
    assert TO_HUB[2] == HUB_COMPOSE;
  }

  /** No enforced option demands native value. */
  lemma EnforcedValuesZero()
    ensures forall k :: 0 <= k < |TO_HUB| ==> TO_HUB[k].value == 0
    ensures forall k :: 0 <= k < |TO_SPOKE| ==> TO_SPOKE[k].value == 0
  {
  }

  /** The two stages' DVN sets: testnet needs only LayerZero Labs; mainnet needs
      LayerZero Labs and Canary plus one of two optional verifiers. */
  lemma DvnSets()
    ensures DVN_CONFIGS.Keys == {"testnet", "mainnet"}
    ensures DVN_CONFIGS["testnet"].required == ["LayerZero Labs"]
    ensures DVN_CONFIGS["testnet"].optional == None
    ensures DVN_CONFIGS["mainnet"].required == ["LayerZero Labs", "Canary"]
    ensures DVN_CONFIGS["mainnet"].optional.Some?
    ensures |DVN_CONFIGS["mainnet"].optional.value.names| == 2
    ensures DVN_CONFIGS["mainnet"].optional.value.threshold == 1
    ensures DVN_CONFIGS["mainnet"].optional.value.threshold <= |DVN_CONFIGS["mainnet"].optional.value.names|
  {
  }
}

=== FILE: naming.dfy ===
/** Contract names `<Type>_<Adapter|OFT>_<marketPair>`, built by the wire
    generator and the send task, and read back from deployment file names
    by the display and validate tasks. */
module Naming {
  import opened Wrappers
  import opened Types
  import opened Strings

  datatype ContractType = GlvToken | MarketToken {
    function Name(): string {
      match this
      case GlvToken => "GlvToken"
      case MarketToken => "MarketToken"
    }
  }

  /** The hub holds an adapter around the existing token; spokes hold an OFT. */
  datatype ContractRole = Adapter | OFT {
    function Name(): string {
      match this
      case Adapter => "Adapter"
      case OFT => "OFT"
    }
  }

  /** The contract name `<type>_<role>_<key>`. */
  function ContractName(ct: ContractType, role: ContractRole, key: string): string {
    ct.Name() + "_" + role.Name() + "_" + key
  }

  /** A contract name is the type, then the role, then the key, separated by `_`. */
  lemma ContractNameShape(ct: ContractType, role: ContractRole, key: string)
    ensures var r := ContractName(ct, role, key);
      && |r| == |ct.Name()| + 1 + |role.Name()| + 1 + |key|
      && r[..|ct.Name()|] == ct.Name() && r[|ct.Name()|] == '_'
      && r[|ct.Name()| + 1..|ct.Name()| + 1 + |role.Name()|] == role.Name() && r[|r| - |key| - 1] == '_'
      && r[|r| - |key|..] == key
  {
  }

  /** Distinct parts give distinct names: the type, role and key can be read back from any contract name. */
  lemma ContractNameInjective(ct1: ContractType, role1: ContractRole, key1: string,
                              ct2: ContractType, role2: ContractRole, key2: string)
    ensures ContractName(ct1, role1, key1) == ContractName(ct2, role2, key2) <==>
      ct1 == ct2 && role1 == role2 && key1 == key2
  {
    var p1 := ContractName(ct1, role1, "");
    ContractNameAppend(ct1, role1, key1);
    ContractNameAppend(ct2, role2, key2);
    if (ct1, role1) != (ct2, role2) {
      var i := PrefixesDiffer(ct1, role1, ct2, role2);
      assert ContractName(ct1, role1, key1)[i] != ContractName(ct2, role2, key2)[i];
    } else if ContractName(ct1, role1, key1) == ContractName(ct2, role2, key2) {
      assert key1 == ContractName(ct1, role1, key1)[|p1|..] == key2;
    }
  }

  /** The fixed parts of two different type/role combinations differ at some position both have. */
  lemma PrefixesDiffer(ct1: ContractType, role1: ContractRole, ct2: ContractType, role2: ContractRole) returns (i: nat)
    requires (ct1, role1) != (ct2, role2)
    ensures i < |ContractName(ct1, role1, "")| && i < |ContractName(ct2, role2, "")|
    ensures ContractName(ct1, role1, "")[i] != ContractName(ct2, role2, "")[i]
  {
    var p1, p2 := ContractName(ct1, role1, ""), ContractName(ct2, role2, "");
    ContractNameShape(ct1, role1, "");
    ContractNameShape(ct2, role2, "");
    if ct1 != ct2 {
      i := 0;
      assert p1[..|ct1.Name()|][0] == ct1.Name()[0];
      assert p2[..|ct2.Name()|][0] == ct2.Name()[0];
    } else {
      i := |ct1.Name()| + 1;
      assert p1[|ct1.Name()| + 1..|ct1.Name()| + 1 + |role1.Name()|][0] == role1.Name()[0];
      assert p2[|ct2.Name()| + 1..|ct2.Name()| + 1 + |role2.Name()|][0] == role2.Name()[0];
    }
  }

  /** The contract type the tasks pick for a token type (`'GM'` is the market token). */
  function ContractTypeFor(t: TokenType): ContractType {
    if t == GM then MarketToken else GlvToken
  }

  /** The token category of a file's contract type: `GlvToken` is GLV, anything else GM. */
  function Category(ct: ContractType): TokenType {
    if ct == GlvToken then GLV else GM
  }

  /** Category and contract-type choice are inverse to each other. */
  lemma CategoryInverse(t: TokenType, ct: ContractType)
    ensures Category(ContractTypeFor(t)) == t
    ensures ContractTypeFor(Category(ct)) == ct
  {
  }

  const JSON_SUFFIX: string := ".json"

  /** The three captures of `^(GlvToken|MarketToken)_(Adapter|OFT)_(.+)\.json$`. */
  datatype ParsedFileName = ParsedFileName(contractType: ContractType, role: ContractRole, marketPair: string)

  /** What `(.+)` can capture: a non-empty run without line terminators. */
  predicate WellFormedPair(key: string) {
    |key| > 0 && NoLineTerminator(key)
  }

  /** The deployment file the deploy executor writes for a contract. */
  function FileNameOf(p: ParsedFileName): string {
    ContractName(p.contractType, p.role, p.marketPair) + JSON_SUFFIX
  }

  /** The pattern with its first two alternatives fixed to `ct` and `role`. */
  function MatchAs(file: string, ct: ContractType, role: ContractRole): (r: Option<ParsedFileName>)
    ensures r.Some? ==> r.value.contractType == ct && r.value.role == role
  {
    var prefix := ContractName(ct, role, "");
    if |file| >= |prefix| + 1 + |JSON_SUFFIX|
       && StartsWith(file, prefix)
       && EndsWith(file, JSON_SUFFIX)
       && NoLineTerminator(file[|prefix|..|file| - |JSON_SUFFIX|])
    then Some(ParsedFileName(ct, role, file[|prefix|..|file| - |JSON_SUFFIX|]))
    else None
  }

  /** `file.match(/^(GlvToken|MarketToken)_(Adapter|OFT)_(.+)\.json$/)`: the
      alternatives are tried in order and the first match wins. */
  function ParseDeploymentFileName(file: string): (r: Option<ParsedFileName>)
    ensures r.Some? ==> WellFormedPair(r.value.marketPair) && file == FileNameOf(r.value)
    ensures r.Some? ==> MatchAs(file, r.value.contractType, r.value.role) == r
  {
    var m1 := MatchAs(file, GlvToken, Adapter);
    if m1.Some? then MatchAsSound(file, GlvToken, Adapter); m1 else
    var m2 := MatchAs(file, GlvToken, OFT);
    if m2.Some? then MatchAsSound(file, GlvToken, OFT); m2 else
    var m3 := MatchAs(file, MarketToken, Adapter);
    if m3.Some? then MatchAsSound(file, MarketToken, Adapter); m3 else
    var m4 := MatchAs(file, MarketToken, OFT);
    if m4.Some? then MatchAsSound(file, MarketToken, OFT); m4 else
    None
  }

  /** A match of one alternative is the file name of its captures. */
  lemma MatchAsSound(file: string, ct: ContractType, role: ContractRole)
    requires MatchAs(file, ct, role).Some?
    ensures var p := MatchAs(file, ct, role).value;
      WellFormedPair(p.marketPair) && file == FileNameOf(p)
  {
    var p := MatchAs(file, ct, role).value;
    var prefix := ContractName(ct, role, "");
    SplitAround(file, prefix, JSON_SUFFIX);
    ContractNameAppend(ct, role, p.marketPair);
  }

  /** The contract name of a pair is the empty-pair name followed by the pair. */
  lemma ContractNameAppend(ct: ContractType, role: ContractRole, key: string)
    ensures ContractName(ct, role, key) == ContractName(ct, role, "") + key
  {
    assert ContractName(ct, role, "") == ct.Name() + "_" + role.Name() + "_";
  }

  /** A string that starts with `prefix` and ends with a non-overlapping `suffix` is the two around its middle. */
  lemma SplitAround(s: string, prefix: string, suffix: string)
    requires |prefix| + |suffix| <= |s| && StartsWith(s, prefix) && EndsWith(s, suffix)
    ensures s == prefix + s[|prefix|..|s| - |suffix|] + suffix
  {
    assert s == s[..|prefix|] + s[|prefix|..|s| - |suffix|] + s[|s| - |suffix|..];
  }

  /** A successful match is the file name of its captures, and the market-pair capture is well formed. */
  lemma ParseSound(file: string)
    requires ParseDeploymentFileName(file).Some?
    ensures var p := ParseDeploymentFileName(file).value;
      WellFormedPair(p.marketPair) && file == FileNameOf(p)
  {
    var p := ParseDeploymentFileName(file).value;
    MatchAsSound(file, p.contractType, p.role);
  }

  /** Round trip: the file name of any contract name with a well-formed market pair parses back to its parts. */
  lemma ParseFileNameOf(p: ParsedFileName)
    requires WellFormedPair(p.marketPair)
    ensures ParseDeploymentFileName(FileNameOf(p)) == Some(p)
  {
    var file := FileNameOf(p);
    MatchOwn(p);
    var prefix := ContractName(p.contractType, p.role, "");
    assert file[..|prefix|] == prefix;
    if p.contractType == MarketToken {
      MismatchAt(file, GlvToken, Adapter, 0);
      MismatchAt(file, GlvToken, OFT, 0);
      if p.role == OFT {
        assert prefix[12] == 'O';
        MismatchAt(file, MarketToken, Adapter, 12);
      }
    } else if p.role == OFT {
      assert prefix[9] == 'O';
      MismatchAt(file, GlvToken, Adapter, 9);
    }
  }

  /** A name parses to exactly the captures it is built from. */
  lemma ParseExactly(file: string)
    ensures forall p :: ParseDeploymentFileName(file) == Some(p) <==> WellFormedPair(p.marketPair) && file == FileNameOf(p)
  {
    forall p: ParsedFileName | WellFormedPair(p.marketPair) && file == FileNameOf(p) ensures ParseDeploymentFileName(file) == Some(p) {
      ParseFileNameOf(p);
    }
  }

  /** Each alternative matches the file name built from its own captures. */
  lemma MatchOwn(p: ParsedFileName)
    requires WellFormedPair(p.marketPair)
    ensures MatchAs(FileNameOf(p), p.contractType, p.role) == Some(p)
  {
    var file := FileNameOf(p);
    var prefix := ContractName(p.contractType, p.role, "");
    ContractNameAppend(p.contractType, p.role, p.marketPair);
    assert file == prefix + p.marketPair + JSON_SUFFIX;
    assert file[..|prefix|] == prefix;
    assert file[|prefix|..|file| - |JSON_SUFFIX|] == p.marketPair;
    assert file[|file| - |JSON_SUFFIX|..] == JSON_SUFFIX;
  }

  /** An alternative whose fixed prefix differs from the file name at `i` does not match. */
  lemma MismatchAt(file: string, ct: ContractType, role: ContractRole, i: nat)
    requires i < |ContractName(ct, role, "")| && i < |file| && file[i] != ContractName(ct, role, "")[i]
    ensures MatchAs(file, ct, role) == None
  {
    var prefix := ContractName(ct, role, "");
    if |prefix| <= |file| {
      assert file[..|prefix|][i] != prefix[i];
    }
  }
}

=== FILE: networks.dfy ===
/** The per-network tables: required block confirmations, the owner/delegate
    address each deployment is handed to, and the expansion lists per stage.
    Endpoint ids are abstract: only their pairwise distinctness matters here. */
module Networks {
  import opened Wrappers
  import opened Types
  import Seqs

  const ARBITRUM_V2_MAINNET: Eid := 1
  const BASE_V2_MAINNET: Eid := 2
  const BERA_V2_MAINNET: Eid := 3
  const BOTANIX_V2_MAINNET: Eid := 4
  const BSC_V2_MAINNET: Eid := 5
  const ETHEREUM_V2_MAINNET: Eid := 6
  const ARBSEP_V2_TESTNET: Eid := 7
  const SEPOLIA_V2_TESTNET: Eid := 8

  const MAINNET_OWNER: string := "0x8D1d2e24eC641eDC6a1ebe0F3aE7af0EBC573e0D"
  const BOTANIX_OWNER: string := "0x656fa39BdB5984b477FA6aB443195D72D1Accc1c"
  const TESTNET_OWNER: string := "0xCD9706B6B71fdC4351091B5b1D910cEe7Fde28D0"

  /** `BlockConfirmations`: a partial record. */
  const BLOCK_CONFIRMATIONS: map<Eid, nat> := map[
    ARBITRUM_V2_MAINNET := 20,
    BASE_V2_MAINNET := 10,
    BERA_V2_MAINNET := 20,
    BOTANIX_V2_MAINNET := 2,
    BSC_V2_MAINNET := 20,
    ETHEREUM_V2_MAINNET := 15,
    ARBSEP_V2_TESTNET := 1,
    SEPOLIA_V2_TESTNET := 1
  ]

  /** `OwnershipTransfer`: a partial record. */
  const OWNERSHIP_TRANSFER: map<Eid, string> := map[
    ARBITRUM_V2_MAINNET := MAINNET_OWNER,
    BASE_V2_MAINNET := MAINNET_OWNER,
    BERA_V2_MAINNET := MAINNET_OWNER,
    BOTANIX_V2_MAINNET := BOTANIX_OWNER,
    BSC_V2_MAINNET := MAINNET_OWNER,
    ETHEREUM_V2_MAINNET := MAINNET_OWNER,
    ARBSEP_V2_TESTNET := TESTNET_OWNER,
    SEPOLIA_V2_TESTNET := TESTNET_OWNER
  ]

  const EXPANSION_TESTNET: seq<Eid> := [SEPOLIA_V2_TESTNET]

  const EXPANSION_MAINNET: seq<Eid> :=
    [BASE_V2_MAINNET, BERA_V2_MAINNET, BSC_V2_MAINNET, BOTANIX_V2_MAINNET, ETHEREUM_V2_MAINNET]

  /** `BlockConfirmations[eid]`: `None` (undefined) for an unlisted network. */
  function BlockConfirmations(eid: Eid): (r: Option<nat>)
    ensures r.Some? <==> eid in BLOCK_CONFIRMATIONS
    ensures r.Some? ==> r.value >= 1
  {
    if eid in BLOCK_CONFIRMATIONS then Some(BLOCK_CONFIRMATIONS[eid]) else None
  }

  /** `OwnershipTransfer[eid]`: `None` (undefined) for an unlisted network. */
  function OwnershipTransfer(eid: Eid): (r: Option<string>)
    ensures r.Some? <==> eid in OWNERSHIP_TRANSFER
    ensures r.Some? ==> r.value in {MAINNET_OWNER, BOTANIX_OWNER, TESTNET_OWNER}
  {
    if eid in OWNERSHIP_TRANSFER then Some(OWNERSHIP_TRANSFER[eid]) else None
  }

  /** A network both tables know. */
  predicate Configured(eid: Eid) {
    BlockConfirmations(eid).Some? && OwnershipTransfer(eid).Some?
  }

  /** Every expansion network has a confirmation depth and an owner. */
  lemma ExpansionNetworksConfigured()
    ensures forall e :: e in EXPANSION_MAINNET ==> Configured(e)
    ensures forall e :: e in EXPANSION_TESTNET ==> Configured(e)
  {
  }

  /** The expansion lists are duplicate-free and leave out their stage's hub. */
  lemma ExpansionNetworksWellFormed()
    ensures Seqs.NoDuplicates(EXPANSION_MAINNET) && Seqs.NoDuplicates(EXPANSION_TESTNET)
    ensures ARBITRUM_V2_MAINNET !in EXPANSION_MAINNET
    ensures ARBSEP_V2_TESTNET !in EXPANSION_TESTNET
  {
  }

  /** Confirmation depths: at least one block everywhere, exactly one on testnets. */
  lemma ConfirmationDepths()
    ensures forall e :: e in BLOCK_CONFIRMATIONS ==> BLOCK_CONFIRMATIONS[e] >= 1
    ensures BlockConfirmations(ARBSEP_V2_TESTNET) == Some(1)
    ensures BlockConfirmations(SEPOLIA_V2_TESTNET) == Some(1)
  {
  }

  /** The tables are partial: a network outside them reads as absent, not as an error. */
  lemma TablesArePartial(eid: Eid)
    requires eid !in {ARBITRUM_V2_MAINNET, BASE_V2_MAINNET, BERA_V2_MAINNET, BOTANIX_V2_MAINNET,
                      BSC_V2_MAINNET, ETHEREUM_V2_MAINNET, ARBSEP_V2_TESTNET, SEPOLIA_V2_TESTNET}
    ensures BlockConfirmations(eid) == None
    ensures OwnershipTransfer(eid) == None
  {
  }
}

=== FILE: pairs.dfy ===
/** The index pairs the wire generator's nested loop visits: for every `i`
    and every `j` over `0..n`, the pair `(i, j)` when `i < j`. */
module PairEnumeration {

  /** The inner loop: `(i, j')` for `j' = j, j+1, ..., n-1`, kept when `i < j'`. */
  function Cols(i: nat, j: nat, n: nat): seq<(nat, nat)>
    decreases n - j
  {
    if j >= n then []
    else (if i < j then [(i, j)] else []) + Cols(i, j + 1, n)
  }

  /** The outer loop from row `i` on, each row scanning every column. */
  function Rows(i: nat, n: nat): seq<(nat, nat)>
    decreases n - i
  {
    if i >= n then []
    else Cols(i, 0, n) + Rows(i + 1, n)
  }

  function IndexPairs(n: nat): seq<(nat, nat)> {
    Rows(0, n)
  }

  /** Lexicographic order on index pairs, the order the loops visit them in. */
  predicate LexLess(p: (nat, nat), q: (nat, nat)) {
    p.0 < q.0 || (p.0 == q.0 && p.1 < q.1)
  }

  lemma {:induction false} ColsMembership(i: nat, j: nat, n: nat)
    ensures forall p :: p in Cols(i, j, n) <==> p.0 == i && j <= p.1 < n && i < p.1
    decreases n - j
  {
    if j < n {
      ColsMembership(i, j + 1, n);
    }
  }

  lemma {:induction false} RowsMembership(i: nat, n: nat)
    ensures forall p :: p in Rows(i, n) <==> i <= p.0 < p.1 < n
    decreases n - i
  {
    if i < n {
      ColsMembership(i, 0, n);
      RowsMembership(i + 1, n);
    }
  }

  /** Exactly the pairs `i < j < n` are visited. */
  lemma IndexPairsMembership(n: nat)
    ensures forall p :: p in IndexPairs(n) <==> p.0 < p.1 < n
  {
    RowsMembership(0, n);
  }

  lemma {:induction false} ColsLength(i: nat, j: nat, n: nat)
    requires j <= n
    ensures var lo := if j > i then j else i + 1;
      |Cols(i, j, n)| == if lo <= n then n - lo else 0
    decreases n - j
  {
    if j < n {
      ColsLength(i, j + 1, n);
    }
  }

  lemma {:induction false} RowsLength(i: nat, n: nat)
    requires i <= n
    ensures |Rows(i, n)| == (n - i) * (n - i - 1) / 2
    decreases n - i
  {
    if i < n {
      ColsLength(i, 0, n);
      RowsLength(i + 1, n);
      var m := n - i;
      assert |Cols(i, 0, n)| == m - 1;
      assert |Rows(i + 1, n)| == (m - 1) * (m - 2) / 2;
      assert (m - 1) * (m - 2) + 2 * (m - 1) == m * (m - 1);
    }
  }

  /** `n` participants give `n·(n−1)/2` visited pairs. */
  lemma IndexPairsCount(n: nat)
    ensures |IndexPairs(n)| == n * (n - 1) / 2
  {
    RowsLength(0, n);
  }

  lemma {:induction false} ColsIncreasing(i: nat, j: nat, n: nat)
    ensures forall a, b :: 0 <= a < b < |Cols(i, j, n)| ==> Cols(i, j, n)[a].1 < Cols(i, j, n)[b].1
    decreases n - j
  {
    if j < n {
      ColsIncreasing(i, j + 1, n);
      ColsMembership(i, j + 1, n);
      var c := Cols(i, j, n);
      var rest := Cols(i, j + 1, n);
      if i < j {
        forall a, b | 0 <= a < b < |c| ensures c[a].1 < c[b].1 {
          if a == 0 {
            assert c[b] == rest[b - 1] && c[b] in rest;
          } else {
            assert c[a] == rest[a - 1] && c[b] == rest[b - 1];
          }
        }
      }
    }
  }

  lemma {:induction false} RowsIncreasing(i: nat, n: nat)
    ensures forall a, b :: 0 <= a < b < |Rows(i, n)| ==> LexLess(Rows(i, n)[a], Rows(i, n)[b])
    decreases n - i
  {
    if i < n {
      ColsIncreasing(i, 0, n);
      ColsMembership(i, 0, n);
      RowsIncreasing(i + 1, n);
      RowsMembership(i + 1, n);
      var c := Cols(i, 0, n);
      var rest := Rows(i + 1, n);
      var r := Rows(i, n);
      forall a, b | 0 <= a < b < |r| ensures LexLess(r[a], r[b]) {
        if b < |c| {
          assert r[a] == c[a] && r[b] == c[b];
        } else if a < |c| {
          assert r[a] == c[a] && r[a] in c;
          assert r[b] == rest[b - |c|] && r[b] in rest;
        } else {
          assert r[a] == rest[a - |c|] && r[b] == rest[b - |c|];
        }
      }
    }
  }

  /** The pairs come in strictly increasing lexicographic order, so none repeats. */
  lemma IndexPairsIncreasing(n: nat)
    ensures forall a, b :: 0 <= a < b < |IndexPairs(n)| ==> LexLess(IndexPairs(n)[a], IndexPairs(n)[b])
  {
    RowsIncreasing(0, n);
  }
}

=== FILE: send_tokens.dfy ===
/** The pure part of the send task: which contract sends, to which peer
    networks, and how much each peer receives. Chain reads (the network's
    endpoint id, its deployments, named accounts, balances) arrive as a
    context value; the sends themselves become a plan of send parameters. */
module SendTokens {
  import opened Wrappers
  import opened Types
  import opened Tokens
  import opened DeployUtils
  import opened Naming
  import WireGenerator
  import opened LayerZero
  import Seqs
  import Strings

  /** The task arguments. Absent string arguments are empty; `parsedAmount` is
      what parsing `amount` with 18 decimals yields (`None`: the parse throws;
      a leading `-` parses to a negative amount);
      `eids` is the comma-separated list already parsed (`None`: not given). */
  datatype SendArgs = SendArgs(
    marketPair: string,
    tokenType: string,
    amount: string,
    parsedAmount: Option<int>,
    recipient: string,
    full: bool,
    eids: Option<seq<int>>,
    toHub: bool)

  /** What the task reads from the network it runs on. */
  datatype SendContext = SendContext(
    currentEid: Option<int>,      // `hre.network.config.eid`
    deployed: seq<string>,        // the names of the network's deployments
    deployerGM: string,           // named accounts, empty when not configured
    deployerGLV: string,
    balance: Option<nat>,         // the sender's token balance (`None`: unreadable)
    lastBalance: nat)             // the balance re-read before the last full-mode send

  /** One `send` call: destination, recipient, amount and minimum amount. The
      amount is negative when a negative amount was given. */
  datatype SendParam = SendParam(dstEid: int, to: string, amountLD: int, minAmountLD: nat)

  /** What the task goes on to send. */
  datatype SendPlan = SendPlan(
    contractName: string,
    sender: string,
    peers: seq<int>,
    perPeer: int,
    insufficientBalance: bool,
    sends: seq<SendParam>)

  /** Why the task stops before sending: a thrown error or an early return. */
  datatype SendError =
    | AmountOrFullRequired
    | ConfigError(cause: DeployConfigError)
    | NoEid
    | ContractNotFound(name: string, candidates: seq<string>)
    | NoDeployer(tokenType: TokenType)
    | MissingExpansionList
    | NoPeers
    | BalanceUnavailable
    | NoBalance
    | InvalidAmount

  /** `tokenType === 'GM' ? GM : GLV`: any other string selects GLV. */
  function TokenTypeOf(s: string): (t: TokenType)
    ensures t == GM <==> s == "GM"
  {
    if s == "GM" then GM else GLV
  }

  /** The contract the task sends from: the adapter on the hub, the OFT elsewhere. */
  function SenderContract(t: TokenType, tc: TokenConfig, current: int, marketPair: string): (r: string)
    // the deployment file of the sender names the token type, the pair, and the adapter exactly on the hub
    ensures WellFormedPair(marketPair) ==>
      var parsed := ParseDeploymentFileName(r + JSON_SUFFIX);
      && parsed.Some?
      && Category(parsed.value.contractType) == t
      && parsed.value.marketPair == marketPair
      && (parsed.value.role == Adapter <==> current == tc.HubEid())
  {
    var role := if tc.HubEid() == current then Adapter else OFT;
    var name := ContractName(ContractTypeFor(t), role, marketPair);
    CategoryInverse(t, ContractTypeFor(t));
    if WellFormedPair(marketPair) then
      ParseFileNameOf(ParsedFileName(ContractTypeFor(t), role, marketPair));
      name
    else name
  }

  /** `toHub ? [hub] : [hub, ...expansionNetworks]`; spreading an undefined list throws. */
  function AllNetworkEids(tc: TokenConfig, toHub: bool): (r: Result<seq<int>, SendError>)
    ensures r.Success? <==> toHub || tc.expansionNetworks.Some?
    ensures r.Success? ==> |r.value| > 0 && r.value[0] == tc.HubEid()
    ensures r.Success? ==> forall e :: e in r.value <==> e == tc.HubEid() || (!toHub && e in tc.expansionNetworks.value)
    ensures toHub ==> r.value == [tc.HubEid()]
    ensures !toHub && r.Success? ==> r.value[1..] == tc.expansionNetworks.value
  {
    if toHub then Success([tc.HubEid()])
    else if tc.expansionNetworks.Some? then
      var all := [tc.HubEid()] + tc.expansionNetworks.value;
      assert forall e :: e in all <==> e == tc.HubEid() || e in tc.expansionNetworks.value;
      Success(all)
    else Failure(MissingExpansionList)
  }

  /** Without the hub-only flag the candidates are the participants of the wire
      graph: both fail on an undefined expansion list, and otherwise agree. */
  lemma CandidatesAreParticipants(t: TokenType, tc: TokenConfig)
    ensures AllNetworkEids(tc, false).Success? <==> WireGenerator.Participants(t, tc).Success?
    ensures AllNetworkEids(tc, false).Success? ==> AllNetworkEids(tc, false).value == WireGenerator.Participants(t, tc).value
  {
    if tc.expansionNetworks.Some? {
      var r := AllNetworkEids(tc, false).value;
      assert r == [r[0]] + r[1..];
    }
  }

  /** The peer networks: the hub (and, unless sending to the hub only, the
      expansion networks) except the current one, narrowed to `eids` when
      given, in their configured order. */
  function PeerEids(tc: TokenConfig, current: int, toHub: bool, eids: Option<seq<int>>): (r: Result<seq<int>, SendError>)
    ensures r.Success? <==> toHub || tc.expansionNetworks.Some?
    ensures r.Failure? ==> r.error == MissingExpansionList
    ensures r.Success? ==> Seqs.IsSubsequence(r.value, AllNetworkEids(tc, toHub).value)
    ensures r.Success? && Seqs.NoDuplicates(AllNetworkEids(tc, toHub).value) ==> Seqs.NoDuplicates(r.value)
    ensures r.Success? ==> forall e :: e in r.value <==>
      && e != current
      && (e == tc.HubEid() || (!toHub && e in tc.expansionNetworks.value))
      && (eids.None? || e in eids.value)
  {
    match AllNetworkEids(tc, toHub)
    case Failure(e) => Failure(e)
    case Success(all) =>
      var notCurrent := (e: int) => e != current;
      var peers := Seqs.Filter(all, notCurrent);
      DistinctAfterFilter(all, notCurrent);
      match eids
      case None => Success(peers)
      case Some(targets) =>
        var listed := (e: int) => e in targets;
        DistinctAfterFilter(peers, listed);
        Seqs.FilterFilter(all, notCurrent, listed);
        Success(Seqs.Filter(peers, listed))
  }

  lemma DistinctAfterFilter(s: seq<int>, keep: int -> bool)
    ensures Seqs.NoDuplicates(s) ==> Seqs.NoDuplicates(Seqs.Filter(s, keep))
  {
    if Seqs.NoDuplicates(s) {
      Seqs.FilterNoDuplicates(s, keep);
    }
  }

  /** `share` sent to each of `peers` fits in `balance`, and one more unit each would not. */
  predicate IsFairShare(share: int, balance: nat, peers: nat) {
    share * peers <= balance < (share + 1) * peers
  }

  /** The full-mode share: the balance divided by the number of peers, rounded down. */
  function PerPeerShare(balance: nat, peers: nat): (r: nat)
    requires peers > 0
    ensures IsFairShare(r, balance, peers)
  {
    balance / peers
  }

  /** One send per peer, in order. In full mode the last peer gets the re-read balance. */
  function Sends(peers: seq<int>, to: string, amount: int, full: bool, lastBalance: nat): (r: seq<SendParam>)
    ensures |r| == |peers|
    ensures forall k :: 0 <= k < |r| ==> r[k].dstEid == peers[k] && r[k].to == to && r[k].minAmountLD == 0
    ensures forall k :: 0 <= k < |r| ==>
      r[k].amountLD == (if full && k == |r| - 1 then lastBalance else amount)
  {
    seq(|peers|, k requires 0 <= k < |peers| =>
      SendParam(peers[k], to, if full && k == |peers| - 1 then lastBalance else amount, 0))
  }

  /** `amountLD.mul(peerEids.length)`: what sending `amount` to each peer takes. */
  function Required(amount: int, peers: nat): int {
    amount * peers
  }

  /** The sum of the amounts sent. */
  function TotalSent(sends: seq<SendParam>): int {
    if |sends| == 0 then 0 else TotalSent(sends[..|sends| - 1]) + sends[|sends| - 1].amountLD
  }

  /** The token configuration the task uses: the selected market pair's, for the
      requested token type (the hub-only placeholder when no pair is selected). */
  function ConfigOf(args: SendArgs, reg: Registry): TokenConfig {
    match GetDeployConfig(args.marketPair, reg)
    case Success(d) => d.marketPairConfig.Get(TokenTypeOf(args.tokenType))
    case Failure(_) => TokenConfig("", "", HubNetwork(0, ""), None)
  }

  /** `vape-send-tokens` up to the sends. */
  function SendTokens(args: SendArgs, reg: Registry, ctx: SendContext): (r: Result<SendPlan, SendError>)
    ensures args.amount == "" && !args.full ==> r == Failure(AmountOrFullRequired)
    ensures (args.amount != "" || args.full) && GetDeployConfig(args.marketPair, reg).Failure? ==>
      r == Failure(ConfigError(GetDeployConfig(args.marketPair, reg).error))
    ensures r.Success? ==>
      && GetDeployConfig(args.marketPair, reg).Success?
      && ctx.currentEid.Some? && ctx.currentEid.value != 0
      && ctx.balance.Some?
    // the contract sends from this network's side of the wiring, and is deployed
    ensures r.Success? ==>
      && r.value.contractName == SenderContract(TokenTypeOf(args.tokenType), ConfigOf(args, reg), ctx.currentEid.value, args.marketPair)
      && r.value.contractName in ctx.deployed
    // the sender is the token type's deployer; the recipient defaults to it
    ensures r.Success? ==>
      && r.value.sender == (if TokenTypeOf(args.tokenType) == GM then ctx.deployerGM else ctx.deployerGLV)
      && r.value.sender != ""
      && (forall k :: 0 <= k < |r.value.sends| ==>
            r.value.sends[k].to == (if args.recipient != "" then args.recipient else r.value.sender))
    // one send per peer: the hub and (unless to the hub only) the expansion
    // networks, never the current network, narrowed to the requested ids
    ensures r.Success? ==>
      && |r.value.peers| > 0
      && |r.value.sends| == |r.value.peers|
      && (forall k :: 0 <= k < |r.value.sends| ==> r.value.sends[k].dstEid == r.value.peers[k])
    ensures r.Success? ==> forall e :: e in r.value.peers <==>
      && e != ctx.currentEid.value
      && (e == ConfigOf(args, reg).HubEid() || (!args.toHub && e in ConfigOf(args, reg).ExpansionOrEmpty()))
      && (args.eids.None? || e in args.eids.value)
    ensures r.Success? && args.full ==>
      && 0 < ctx.balance.value
      && IsFairShare(r.value.perPeer, ctx.balance.value, |r.value.peers|)
      && !r.value.insufficientBalance
    ensures r.Success? && !args.full ==>
      && args.parsedAmount == Some(r.value.perPeer)
      && (r.value.insufficientBalance <==> ctx.balance.value < Required(r.value.perPeer, |r.value.peers|))
      && TotalSent(r.value.sends) == Required(r.value.perPeer, |r.value.peers|)
    // the peers in the order and multiplicity `PeerEids` gives them, each sent
    // the per-peer amount (in full mode the last is sent the re-read balance)
    ensures r.Success? ==>
      && PeerEids(ConfigOf(args, reg), ctx.currentEid.value, args.toHub, args.eids) == Success(r.value.peers)
      && r.value.sends == Sends(r.value.peers, if args.recipient != "" then args.recipient else r.value.sender,
                                r.value.perPeer, args.full, ctx.lastBalance)
      && (forall k :: 0 <= k < |r.value.sends| ==>
            r.value.sends[k].amountLD == (if args.full && k == |r.value.sends| - 1 then ctx.lastBalance else r.value.perPeer))
    // once the market pair resolves, the task goes on as `SendFrom` with its configuration
    ensures (args.amount != "" || args.full) && GetDeployConfig(args.marketPair, reg).Success? ==>
      r == SendFrom(args, ConfigOf(args, reg), ctx)
  {
    if args.amount == "" && !args.full then Failure(AmountOrFullRequired)
    else
      match GetDeployConfig(args.marketPair, reg)
      case Failure(e) => Failure(ConfigError(e))
      case Success(d) => SendFrom(args, d.marketPairConfig.Get(TokenTypeOf(args.tokenType)), ctx)
  }

  /** The task once the market pair is selected, with `tc` its configuration for the token type. */
  function SendFrom(args: SendArgs, tc: TokenConfig, ctx: SendContext): (r: Result<SendPlan, SendError>)
    // a missing or zero endpoint id throws first
    ensures ctx.currentEid.None? || ctx.currentEid.value == 0 ==> r == Failure(NoEid)
    // with an id, the task returns early exactly when the sending contract is not deployed
    ensures ctx.currentEid.Some? && ctx.currentEid.value != 0 ==>
      (r.Failure? && r.error.ContractNotFound? <==>
         SenderContract(TokenTypeOf(args.tokenType), tc, ctx.currentEid.value, args.marketPair) !in ctx.deployed)
    // with the contract deployed, it throws exactly when the token type's deployer is missing,
    // and otherwise goes on to the peers and the balance
    ensures ctx.currentEid.Some? && ctx.currentEid.value != 0
            && SenderContract(TokenTypeOf(args.tokenType), tc, ctx.currentEid.value, args.marketPair) in ctx.deployed ==>
      var sender := if TokenTypeOf(args.tokenType) == GM then ctx.deployerGM else ctx.deployerGLV;
      && (sender == "" ==> r == Failure(NoDeployer(TokenTypeOf(args.tokenType))))
      && (sender != "" ==>
            r == PlanSends(args, ctx, tc, ctx.currentEid.value,
                           SenderContract(TokenTypeOf(args.tokenType), tc, ctx.currentEid.value, args.marketPair), sender))
    ensures r.Failure? && r.error.ContractNotFound? ==>
      forall n :: n in r.error.candidates <==> n in ctx.deployed && Strings.Contains(n, args.marketPair)
    ensures r.Success? ==>
      && ctx.currentEid.Some? && ctx.currentEid.value != 0
      && ctx.balance.Some?
    // the contract sends from this network's side of the wiring, and is deployed
    ensures r.Success? ==>
      && r.value.contractName == SenderContract(TokenTypeOf(args.tokenType), tc, ctx.currentEid.value, args.marketPair)
      && r.value.contractName in ctx.deployed
    // the sender is the token type's deployer; the recipient defaults to it
    ensures r.Success? ==>
      && r.value.sender == (if TokenTypeOf(args.tokenType) == GM then ctx.deployerGM else ctx.deployerGLV)
      && r.value.sender != ""
      && (forall k :: 0 <= k < |r.value.sends| ==>
            r.value.sends[k].to == (if args.recipient != "" then args.recipient else r.value.sender))
    // one send per peer: the hub and (unless to the hub only) the expansion
    // networks, never the current network, narrowed to the requested ids
    ensures r.Success? ==>
      && |r.value.peers| > 0
      && |r.value.sends| == |r.value.peers|
      && (forall k :: 0 <= k < |r.value.sends| ==> r.value.sends[k].dstEid == r.value.peers[k])
    ensures r.Success? ==> forall e :: e in r.value.peers <==>
      && e != ctx.currentEid.value
      && (e == tc.HubEid() || (!args.toHub && e in tc.ExpansionOrEmpty()))
      && (args.eids.None? || e in args.eids.value)
    ensures r.Success? && args.full ==>
      && 0 < ctx.balance.value
      && IsFairShare(r.value.perPeer, ctx.balance.value, |r.value.peers|)
      && !r.value.insufficientBalance
    ensures r.Success? && !args.full ==>
      && args.parsedAmount == Some(r.value.perPeer)
      && (r.value.insufficientBalance <==> ctx.balance.value < Required(r.value.perPeer, |r.value.peers|))
      && TotalSent(r.value.sends) == Required(r.value.perPeer, |r.value.peers|)
    // the peers in the order and multiplicity `PeerEids` gives them, each sent
    // the per-peer amount (in full mode the last is sent the re-read balance)
    ensures r.Success? ==>
      && PeerEids(tc, ctx.currentEid.value, args.toHub, args.eids) == Success(r.value.peers)
      && r.value.sends == Sends(r.value.peers, if args.recipient != "" then args.recipient else r.value.sender,
                                r.value.perPeer, args.full, ctx.lastBalance)
  {
    var t := TokenTypeOf(args.tokenType);
    if ctx.currentEid.None? || ctx.currentEid.value == 0 then Failure(NoEid)
    else
      var current := ctx.currentEid.value;
      var name := SenderContract(t, tc, current, args.marketPair);
      if name !in ctx.deployed then
        Failure(ContractNotFound(name, Seqs.Filter(ctx.deployed, (n: string) => Strings.Contains(n, args.marketPair))))
      else
        var sender := if t == GM then ctx.deployerGM else ctx.deployerGLV;
        if sender == "" then Failure(NoDeployer(t))
        else PlanSends(args, ctx, tc, current, name, sender)
  }

  /** The task once the sending contract and the sender are known: the peers,
      the balance check and the amount per peer. */
  function PlanSends(args: SendArgs, ctx: SendContext, tc: TokenConfig, current: int, name: string, sender: string)
    : (r: Result<SendPlan, SendError>)
    // an empty peer list stops the task before the balance is read
    ensures PeerEids(tc, current, args.toHub, args.eids) == Success([]) <==> r == Failure(NoPeers)
    // an undefined expansion list throws when the peers are listed
    ensures PeerEids(tc, current, args.toHub, args.eids).Failure? ==> r == Failure(MissingExpansionList)
    // with peers, an unreadable balance stops the task
    ensures (&& PeerEids(tc, current, args.toHub, args.eids).Success?
             && |PeerEids(tc, current, args.toHub, args.eids).value| > 0
             && ctx.balance.None?) ==> r == Failure(BalanceUnavailable)
    // a zero balance stops full mode; a shortfall in fixed mode only warns
    ensures (&& PeerEids(tc, current, args.toHub, args.eids).Success?
             && |PeerEids(tc, current, args.toHub, args.eids).value| > 0
             && ctx.balance.Some?) ==>
      && (args.full ==> (r.Success? <==> ctx.balance.value > 0))
      && (args.full && ctx.balance.value == 0 ==> r == Failure(NoBalance))
      && (!args.full ==> (r.Success? <==> args.parsedAmount.Some?))
    ensures r.Success? ==>
      && r.value.contractName == name && r.value.sender == sender
      && ctx.balance.Some?
      && PeerEids(tc, current, args.toHub, args.eids) == Success(r.value.peers)
      && |r.value.peers| > 0
      && |r.value.sends| == |r.value.peers|
      && (forall k :: 0 <= k < |r.value.sends| ==> r.value.sends[k].dstEid == r.value.peers[k])
      && (forall k :: 0 <= k < |r.value.sends| ==>
            r.value.sends[k].to == (if args.recipient != "" then args.recipient else sender))
    ensures r.Success? && args.full ==>
      && 0 < ctx.balance.value
      && IsFairShare(r.value.perPeer, ctx.balance.value, |r.value.peers|)
      && !r.value.insufficientBalance
    ensures r.Success? && !args.full ==>
      && args.parsedAmount == Some(r.value.perPeer)
      && (r.value.insufficientBalance <==> ctx.balance.value < Required(r.value.perPeer, |r.value.peers|))
      && TotalSent(r.value.sends) == Required(r.value.perPeer, |r.value.peers|)
    // every peer is sent the per-peer amount, except that in full mode the last
    // is sent the balance read just before its send
    ensures r.Success? ==>
      r.value.sends == Sends(r.value.peers, if args.recipient != "" then args.recipient else sender,
                             r.value.perPeer, args.full, ctx.lastBalance)
  {
    var recipient := if args.recipient != "" then args.recipient else sender;
    match PeerEids(tc, current, args.toHub, args.eids)
    case Failure(e) => Failure(e)
    case Success(peers) =>
      if |peers| == 0 then Failure(NoPeers)
      else if ctx.balance.None? then Failure(BalanceUnavailable)
      else
        var balance := ctx.balance.value;
        if args.full then
          if balance == 0 then Failure(NoBalance)
          else
            var share := PerPeerShare(balance, |peers|);
            Success(SendPlan(name, sender, peers, share, false, Sends(peers, recipient, share, true, ctx.lastBalance)))
        else if args.parsedAmount.None? then Failure(InvalidAmount)
        else
          var amount := args.parsedAmount.value;
          var sends := Sends(peers, recipient, amount, false, ctx.lastBalance);
          FixedAmountTotal(sends, amount);
          Success(SendPlan(name, sender, peers, amount, balance < Required(amount, |peers|), sends))
  }

  /** A negative fixed amount, which the amount parser accepts, raises no shortfall
      warning, and every peer is sent that negative amount. */
  lemma NegativeAmountSent(args: SendArgs, ctx: SendContext, tc: TokenConfig, current: int, name: string, sender: string)
    requires !args.full && args.parsedAmount.Some? && args.parsedAmount.value < 0
    requires PeerEids(tc, current, args.toHub, args.eids).Success? && |PeerEids(tc, current, args.toHub, args.eids).value| > 0
    requires ctx.balance.Some?
    ensures var r := PlanSends(args, ctx, tc, current, name, sender);
      && r.Success?
      && !r.value.insufficientBalance
      && (forall k :: 0 <= k < |r.value.sends| ==> r.value.sends[k].amountLD == args.parsedAmount.value)
  {
    var r := PlanSends(args, ctx, tc, current, name, sender);
    assert Required(r.value.perPeer, |r.value.peers|) < 0;
  }

  /** Sends of one fixed amount add up to that amount per send. */
  lemma {:induction false} FixedAmountTotal(sends: seq<SendParam>, amount: int)
    requires forall k :: 0 <= k < |sends| ==> sends[k].amountLD == amount
    ensures TotalSent(sends) == Required(amount, |sends|)
  {
    if |sends| > 0 {
      FixedAmountTotal(sends[..|sends| - 1], amount);
    }
  }

  /** In full mode, when every earlier send has left the balance, the last send
      takes what remains and the sends add up to the whole balance. */
  lemma FullModeSendsWholeBalance(peers: seq<int>, to: string, balance: nat, lastBalance: nat)
    requires |peers| > 0
    requires lastBalance == balance - (|peers| - 1) * PerPeerShare(balance, |peers|)
    ensures TotalSent(Sends(peers, to, PerPeerShare(balance, |peers|), true, lastBalance)) == balance
  {
    var share := PerPeerShare(balance, |peers|);
    var sends := Sends(peers, to, share, true, lastBalance);
    var init := sends[..|sends| - 1];
    FixedAmountTotal(init, share);
  }

  /** The sending contract is the contract the wire generator puts on the
      current network, so the sends travel over wired pathways. */
  lemma SenderIsWired(t: TokenType, tc: TokenConfig, current: int, marketPair: string, k: nat)
    requires tc.expansionNetworks.Some?
    requires var eids := WireGenerator.Participants(t, tc).value; k < |eids| && eids[k] == current
    ensures var points := WireGenerator.ParticipantPoints(ContractTypeFor(t), marketPair, tc.HubEid(), WireGenerator.Participants(t, tc).value);
      points[k] == WireGenerator.OmniPoint(current, SenderContract(t, tc, current, marketPair))
  {
  }

  /** Every peer is joined to the current network by a pathway of the wire graph. */
  lemma PeersAreConnected(t: TokenType, tc: TokenConfig, current: int, toHub: bool, eids: Option<seq<int>>,
                          dvns: DvnConfig, marketPair: string, peer: int)
    requires tc.expansionNetworks.Some?
    requires current in WireGenerator.Participants(t, tc).value
    requires PeerEids(tc, current, toHub, eids).Success? && peer in PeerEids(tc, current, toHub, eids).value
    ensures var points := WireGenerator.ParticipantPoints(ContractTypeFor(t), marketPair, tc.HubEid(), WireGenerator.Participants(t, tc).value);
      exists p :: p in WireGenerator.CreatePathways(points, dvns, tc.HubEid()) &&
        ((p.a.eid == current && p.b.eid == peer) || (p.a.eid == peer && p.b.eid == current))
  {
    PeerIsCandidate(tc, current, toHub, eids, peer);
    ParticipantsConnected(t, tc, dvns, marketPair, current, peer);
  }

  /** A peer is a hub or expansion network other than the current one. */
  lemma PeerIsCandidate(tc: TokenConfig, current: int, toHub: bool, eids: Option<seq<int>>, peer: int)
    requires PeerEids(tc, current, toHub, eids).Success? && peer in PeerEids(tc, current, toHub, eids).value
    ensures peer != current
    ensures peer == tc.HubEid() || (tc.expansionNetworks.Some? && peer in tc.expansionNetworks.value)
  {
  }

  /** Any two different participants of the wire graph are joined by one of its pathways. */
  lemma ParticipantsConnected(t: TokenType, tc: TokenConfig, dvns: DvnConfig, marketPair: string, x: int, y: int)
    requires tc.expansionNetworks.Some?
    requires x in WireGenerator.Participants(t, tc).value
    requires y == tc.HubEid() || y in tc.expansionNetworks.value
    requires x != y
    ensures var points := WireGenerator.ParticipantPoints(ContractTypeFor(t), marketPair, tc.HubEid(), WireGenerator.Participants(t, tc).value);
      exists p :: p in WireGenerator.CreatePathways(points, dvns, tc.HubEid()) &&
        ((p.a.eid == x && p.b.eid == y) || (p.a.eid == y && p.b.eid == x))
  {
    var all := WireGenerator.Participants(t, tc).value;
    var i :| 0 <= i < |all| && all[i] == x;
    var j := ParticipantIndex(t, tc, y);
    var points := WireGenerator.ParticipantPoints(ContractTypeFor(t), marketPair, tc.HubEid(), all);
    assert WireGenerator.Eids(points) == all;
    assert points[i].eid == x && points[j].eid == y;
    var lo, hi := if i < j then i else j, if i < j then j else i;
    WireGenerator.PathwaysCoverAllPairs(points, dvns, tc.HubEid(), lo, hi);
    var r := WireGenerator.CreatePathways(points, dvns, tc.HubEid());
    var k :| 0 <= k < |r| && r[k].a == points[lo] && r[k].b == points[hi];
    assert r[k] in r;
  }

  /** Where a hub or expansion network sits in the participant list. */
  lemma ParticipantIndex(t: TokenType, tc: TokenConfig, e: int) returns (j: nat)
    requires tc.expansionNetworks.Some?
    requires e == tc.HubEid() || e in tc.expansionNetworks.value
    ensures j < |WireGenerator.Participants(t, tc).value| && WireGenerator.Participants(t, tc).value[j] == e
  {
    var all := WireGenerator.Participants(t, tc).value;
    if e == tc.HubEid() {
      j := 0;
    } else {
      var x :| 0 <= x < |tc.expansionNetworks.value| && tc.expansionNetworks.value[x] == e;
      j := x + 1;
      assert all[j] == all[1..][x];
    }
  }
}

=== FILE: seqs.dfy ===
/** Sequence operations the source takes from JavaScript's Array prototype
    (`includes`, `filter`, `new Set(...)`), each tied to a declarative meaning. */
module Seqs {

  /** `xs.includes(x)`: a front-to-back scan for `x`. */
  function Includes<T(==)>(xs: seq<T>, x: T): (r: bool)
    ensures r <==> x in xs
  {
    if |xs| == 0 then false
    else xs[0] == x || Includes(xs[1..], x)
  }

  /** The first components of an association list, in order: the keys of a
      JavaScript record as `Object.keys` lists them. */
  function Firsts<K, V>(s: seq<(K, V)>): (r: seq<K>)
    ensures |r| == |s|
    ensures forall k :: 0 <= k < |s| ==> r[k] == s[k].0
  {
    if |s| == 0 then [] else [s[0].0] + Firsts(s[1..])
  }

  /** No element occurs twice. */
  predicate NoDuplicates<T(==)>(s: seq<T>) {
    forall i, j :: 0 <= i < j < |s| ==> s[i] != s[j]
  }

  /** `a` can be obtained from `b` by deleting elements, keeping order. */
  predicate IsSubsequence<T(==)>(a: seq<T>, b: seq<T>)
    decreases |b|
  {
    || |a| == 0
    || (&& |b| > 0
        && ((a[0] == b[0] && IsSubsequence(a[1..], b[1..])) || IsSubsequence(a, b[1..])))
  }

  /** `s.filter(keep)`: the elements of `s` satisfying `keep`, in their original order. */
  function Filter<T(==,!new)>(s: seq<T>, keep: T -> bool): (r: seq<T>)
    ensures forall x :: x in r <==> x in s && keep(x)
    ensures IsSubsequence(r, s)
    ensures |r| <= |s|
  {
    if |s| == 0 then []
    else if keep(s[0]) then [s[0]] + Filter(s[1..], keep)
    else Filter(s[1..], keep)
  }

  /** Two filters in a row keep what passes both. */
  lemma {:induction false} FilterFilter<T(!new)>(s: seq<T>, p: T -> bool, q: T -> bool)
    ensures Filter(Filter(s, p), q) == Filter(s, (x: T) => p(x) && q(x))
  {
    if |s| > 0 {
      FilterFilter(s[1..], p, q);
      if p(s[0]) {
        assert Filter(s, p)[1..] == Filter(s[1..], p);
      }
    }
  }

  /** Filtering a duplicate-free sequence leaves it duplicate-free. */
  lemma {:induction false} FilterNoDuplicates<T(!new)>(s: seq<T>, keep: T -> bool)
    requires NoDuplicates(s)
    ensures NoDuplicates(Filter(s, keep))
  {
    if |s| > 0 {
      assert NoDuplicates(s[1..]) by {
        forall i, j | 0 <= i < j < |s[1..]| ensures s[1..][i] != s[1..][j] {
          assert s[1..][i] == s[i + 1] && s[1..][j] == s[j + 1];
        }
      }
      FilterNoDuplicates(s[1..], keep);
      if keep(s[0]) {
        var r := Filter(s, keep);
        var t := Filter(s[1..], keep);
        assert s[0] !in s[1..] by {
          forall k | 0 <= k < |s[1..]| ensures s[1..][k] != s[0] {
            assert s[1..][k] == s[k + 1];
          }
        }
        assert s[0] !in t;
        forall i, j | 0 <= i < j < |r| ensures r[i] != r[j] {
          if i == 0 {
            assert r[j] == t[j - 1];
          } else {
            assert r[i] == t[i - 1] && r[j] == t[j - 1];
          }
        }
      }
    }
  }

  /** `[...new Set(s)]`: the distinct elements of `s`, each at its first occurrence. */
  function Dedup<T(==,!new)>(s: seq<T>): (r: seq<T>)
    ensures NoDuplicates(r)
    ensures forall x :: x in r <==> x in s
    ensures |r| <= |s|
  {
    if |s| == 0 then []
    else
      var d := Dedup(s[..|s| - 1]);
      var last := s[|s| - 1];
      assert s == s[..|s| - 1] + [last];
      if last in d then d else d + [last]
  }
}

=== FILE: strings.dfy ===
/** The string operations the source uses (`startsWith`, `endsWith`,
    `includes`, the default `Array.prototype.sort` order), on `seq<char>`. */
module Strings {

  predicate StartsWith(s: string, prefix: string) {
    |prefix| <= |s| && s[..|prefix|] == prefix
  }

  predicate EndsWith(s: string, suffix: string) {
    |suffix| <= |s| && s[|s| - |suffix|..] == suffix
  }

  /** `sub` occurs in `s` starting at index `i`. */
  predicate OccursAt(s: string, sub: string, i: int) {
    0 <= i && i + |sub| <= |s| && s[i..i + |sub|] == sub
  }

  /** `s.includes(sub)`: a left-to-right search for `sub`. */
  function Contains(s: string, sub: string): (r: bool)
    ensures r <==> exists i :: OccursAt(s, sub, i)
    decreases |s|
  {
    if StartsWith(s, sub) then
      assert OccursAt(s, sub, 0);
      true
    else if |s| == 0 then
      assert forall i :: !OccursAt(s, sub, i);
      false
    else
      OccursShift(s, sub);
      Contains(s[1..], sub)
  }

  /** An occurrence past index 0 of `s` is an occurrence in `s[1..]`, and back. */
  lemma OccursShift(s: string, sub: string)
    requires |s| > 0 && !StartsWith(s, sub)
    ensures (exists i :: OccursAt(s, sub, i)) <==> (exists i :: OccursAt(s[1..], sub, i))
  {
    if i :| OccursAt(s, sub, i) {
      assert i != 0;
      assert s[1..][i - 1..i - 1 + |sub|] == s[i..i + |sub|];
      assert OccursAt(s[1..], sub, i - 1);
    }
    if i :| OccursAt(s[1..], sub, i) {
      assert s[1..][i..i + |sub|] == s[i + 1..i + 1 + |sub|];
      assert OccursAt(s, sub, i + 1);
    }
  }

  /** The ECMAScript line terminators, which a regular-expression `.` does not match. */
  predicate IsLineTerminator(c: char) {
    c == '\n' || c == '\r' || c == '\U{2028}' || c == '\U{2029}'
  }

  predicate NoLineTerminator(s: string) {
    forall k :: 0 <= k < |s| ==> !IsLineTerminator(s[k])
  }

  /** Lexicographic order on strings, a proper prefix sorting first:
      the order of `Array.prototype.sort` with no comparator. */
  predicate StrLe(a: string, b: string)
    decreases |a|
  {
    if |a| == 0 then true
    else if |b| == 0 then false
    else if a[0] != b[0] then a[0] < b[0]
    else StrLe(a[1..], b[1..])
  }

  lemma StrLeTotal(a: string, b: string)
    ensures StrLe(a, b) || StrLe(b, a)
    decreases |a|
  {
    if |a| > 0 && |b| > 0 && a[0] == b[0] {
      StrLeTotal(a[1..], b[1..]);
    }
  }

  lemma StrLeTransitive(a: string, b: string, c: string)
    requires StrLe(a, b) && StrLe(b, c)
    ensures StrLe(a, c)
    decreases |a|
  {
    if |a| > 0 && |b| > 0 && |c| > 0 && a[0] == b[0] && b[0] == c[0] {
      StrLeTransitive(a[1..], b[1..], c[1..]);
    }
  }

  /** Every string is no greater than the one after it. */
  predicate Sorted(s: seq<string>) {
    forall k :: 0 <= k < |s| - 1 ==> StrLe(s[k], s[k + 1])
  }

  /** Sorted in the adjacent sense means sorted between any two positions. */
  lemma {:induction false} SortedPairwise(s: seq<string>, i: int, j: int)
    requires Sorted(s) && 0 <= i <= j < |s|
    ensures StrLe(s[i], s[j])
    decreases j - i
  {
    if i == j {
      StrLeReflexive(s[i]);
    } else {
      SortedPairwise(s, i + 1, j);
      StrLeTransitive(s[i], s[i + 1], s[j]);
    }
  }

  lemma StrLeReflexive(a: string)
    ensures StrLe(a, a)
  {
  }

  function InsertSorted(x: string, s: seq<string>): (r: seq<string>)
    requires Sorted(s)
    ensures Sorted(r)
    ensures multiset(r) == multiset(s) + multiset{x}
    ensures |r| > 0 && (r[0] == x || (|s| > 0 && r[0] == s[0]))
  {
    if |s| == 0 then [x]
    else if StrLe(x, s[0]) then [x] + s
    else
      StrLeTotal(x, s[0]);
      assert s == [s[0]] + s[1..];
      [s[0]] + InsertSorted(x, s[1..])
  }

  /** `Array.prototype.sort()` on strings, as an insertion sort. */
  function Sort(s: seq<string>): (r: seq<string>)
    ensures Sorted(r)
    ensures multiset(r) == multiset(s)
  {
    if |s| == 0 then []
    else
      assert s == [s[0]] + s[1..];
      InsertSorted(s[0], Sort(s[1..]))
  }
}

=== FILE: tokens.dfy ===
/** The market-pair registry (`Tokens`): an ordered table from market-pair key
    to the pair's GM and GLV token configurations. The order is the record's
    insertion order, which is the order in which its keys are listed. */
module Tokens {
  import opened Wrappers
  import opened Types
  import opened Networks
  import Seqs

  type Registry = seq<(string, MarketPairConfig)>

  /** `Object.keys(registry)`. */
  function Keys(reg: Registry): seq<string> {
    Seqs.Firsts(reg)
  }

  /** `registry[key]`: the configuration stored under `key`, if any. */
  function Lookup(reg: Registry, key: string): (r: Option<MarketPairConfig>)
    ensures r.Some? <==> key in Keys(reg)
    ensures r.Some? ==> (key, r.value) in reg
  {
    if |reg| == 0 then None
    else if reg[0].0 == key then Some(reg[0].1)
    else Lookup(reg[1..], key)
  }

  const WETH_USDC: MarketPairConfig := MarketPairConfig(
    TokenConfig("GM WETH-USDC", "GM WETH-USDC",
      HubNetwork(ARBITRUM_V2_MAINNET, "0x70d95587d40a2caf56bd97485ab3eec10bee6336"),
      Some(EXPANSION_MAINNET)),
    TokenConfig("GMX Liquidity Vault [WETH-USDC]", "GLV [WETH-USDC]",
      HubNetwork(ARBITRUM_V2_MAINNET, "0x528A5bac7E746C9A509A1f4F6dF58A03d44279F9"),
      Some(EXPANSION_MAINNET)))

  const WBTC_USDC: MarketPairConfig := MarketPairConfig(
    TokenConfig("GM WBTC-USDC", "GM WBTC-USDC",
      HubNetwork(ARBITRUM_V2_MAINNET, "0x47c031236e19d024b42f8ae6780e44a573170703"),
      Some(EXPANSION_MAINNET)),
    TokenConfig("GMX Liquidity Vault [WBTC-USDC]", "GLV [WBTC-USDC]",
      HubNetwork(ARBITRUM_V2_MAINNET, "0xdF03EEd325b82bC1d4Db8b49c30ecc9E05104b96"),
      Some(EXPANSION_MAINNET)))

  const WETH_USDC_SG: MarketPairConfig := MarketPairConfig(
    TokenConfig("GM WETH-USDC.SG", "GM WETH-USDC.SG",
      HubNetwork(ARBSEP_V2_TESTNET, "0xb6fC4C9eB02C35A134044526C62bb15014Ac0Bcc"),
      Some(EXPANSION_TESTNET)),
    TokenConfig("GMX Liquidity Vault [WETH-USDC.SG]", "GLV [WETH-USDC.SG]",
      HubNetwork(ARBSEP_V2_TESTNET, "0xAb3567e55c205c62B141967145F37b7695a9F854"),
      Some(EXPANSION_TESTNET)))

  const TOKENS: Registry :=
    [("WETH_USDC", WETH_USDC), ("WBTC_USDC", WBTC_USDC), ("WETH_USDC_SG", WETH_USDC_SG)]
}

=== FILE: types.dfy ===
/** The configuration records shared by every component: a market pair bundles
    one token configuration per token type (GM market token, GLV vault token). */
module Types {
  import opened Wrappers

  /** A LayerZero endpoint id: an opaque integer naming one network. */
  type Eid = int

  /** The two token roles of a market pair. */
  datatype TokenType = GM | GLV {
    /** The name the tasks print and compare against (`'GM'` / `'GLV'`). */
    function Name(): string {
      match this
      case GM => "GM"
      case GLV => "GLV"
    }
  }

  /** The network holding the canonical token and that token's address there. */
  datatype HubNetwork = HubNetwork(eid: Eid, contractAddress: string)

  /** One token of a market pair. The expansion list is `None` when the record
      leaves it undefined, which the validator tolerates. */
  datatype TokenConfig = TokenConfig(
    tokenName: string,
    tokenSymbol: string,
    hubNetwork: HubNetwork,
    expansionNetworks: Option<seq<Eid>>)
  {
    function HubEid(): Eid {
      hubNetwork.eid
    }

    /** `expansionNetworks || []`. */
    function ExpansionOrEmpty(): seq<Eid> {
      expansionNetworks.GetOr([])
    }
  }

  datatype MarketPairConfig = MarketPairConfig(gm: TokenConfig, glv: TokenConfig) {
    /** `marketPairConfig[tokenType]`. */
    function Get(t: TokenType): TokenConfig {
      match t
      case GM => gm
      case GLV => glv
    }
  }

  /** A resolved market-pair selection. */
  datatype DeployConfig = DeployConfig(marketPairKey: string, marketPairConfig: MarketPairConfig)
}

=== FILE: validate_deployments.dfy ===
/** The pure part of the validate task: which networks are sources and
    targets, which deployments are collected, which market-pair/token groups
    are skipped, and which source→target contract pairs get a send quote. */
module ValidateDeployments {
  import opened Wrappers
  import opened Types
  import opened Strings
  import opened Naming
  import opened DeploymentFiles
  import Seqs

  /** One collected deployment, with the endpoint id of its network. */
  datatype DeploymentInfo = DeploymentInfo(network: string, address: Option<string>, contractType: ContractRole, eid: int)

  /** The task arguments: `filterNetworks` already split at commas and trimmed
      (`None` when absent), and the market-pair and token-type filters (empty when absent). */
  datatype ValidateArgs = ValidateArgs(
    filterNetworks: Option<seq<string>>,
    mainnet: bool,
    testnet: bool,
    marketPair: string,
    tokenType: string)

  function StageNetworks(all: seq<string>, args: ValidateArgs): (r: seq<string>)
    ensures forall n :: n in r <==> n in all && StageFilter(args.mainnet, args.testnet, n)
  {
    Seqs.Filter(all, (n: string) => StageFilter(args.mainnet, args.testnet, n))
  }

  /** The networks quotes are sent from: the requested ones that exist, or the stage filter's. */
  function SourceNetworks(all: seq<string>, args: ValidateArgs): (r: seq<string>)
    ensures forall n :: n in r ==> n in all
    ensures args.filterNetworks.Some? ==> forall n :: n in r <==> n in args.filterNetworks.value && n in all
    ensures args.filterNetworks.None? ==> forall n :: n in r <==> n in all && StageFilter(args.mainnet, args.testnet, n)
  {
    match args.filterNetworks
    case Some(requested) => Seqs.Filter(requested, (n: string) => n in all)
    case None => StageNetworks(all, args)
  }

  /** The networks quotes are sent to: the stage filter's, whatever was requested. */
  function TargetNetworks(all: seq<string>, args: ValidateArgs): (r: seq<string>)
    ensures forall n :: n in r <==> n in all && StageFilter(args.mainnet, args.testnet, n)
  {
    StageNetworks(all, args)
  }

  /** The requested networks with no deployment directory. */
  function MissingNetworks(all: seq<string>, requested: seq<string>): (r: seq<string>)
    ensures forall n :: n in r <==> n in requested && n !in all
  {
    Seqs.Filter(requested, (n: string) => n !in all)
  }

  /** `[...new Set([...sourceNetworks, ...targetNetworks])]`. */
  function NetworksToScan(all: seq<string>, args: ValidateArgs): (r: seq<string>)
    ensures Seqs.NoDuplicates(r)
    ensures forall n :: n in r <==> n in SourceNetworks(all, args) || n in TargetNetworks(all, args)
  {
    Seqs.Dedup(SourceNetworks(all, args) + TargetNetworks(all, args))
  }

  function DirNames(dirs: seq<NetworkDir>): (r: seq<string>)
    ensures |r| == |dirs|
    ensures forall k :: 0 <= k < |dirs| ==> r[k] == dirs[k].name
  {
    if |dirs| == 0 then [] else [dirs[0].name] + DirNames(dirs[1..])
  }

  /** The files of the directory named `network`. */
  function FilesOf(dirs: seq<NetworkDir>, network: string): seq<DeploymentFile> {
    if |dirs| == 0 then []
    else if dirs[0].name == network then dirs[0].files
    else FilesOf(dirs[1..], network)
  }

  /** `networkEids[network]`, where a missing entry and `0` both read as no id. */
  function EidOf(networkEids: map<string, int>, network: string): (r: Option<int>)
    ensures r.Some? <==> network in networkEids && networkEids[network] != 0
    ensures r.Some? ==> r.value == networkEids[network] && r.value != 0
  {
    if network in networkEids && networkEids[network] != 0 then Some(networkEids[network]) else None
  }

  /** A file that parses as JSON, whose name parses and which passes the
      market-pair and token-type filters. */
  predicate Selected(f: DeploymentFile, args: ValidateArgs): (r: bool)
    ensures r <==> && IsCandidateFile(f.name) && !f.content.Unparsable?
                   && exists p: ParsedFileName :: && WellFormedPair(p.marketPair) && f.name == FileNameOf(p)
                                  && (args.marketPair == "" || p.marketPair == args.marketPair)
                                  && (args.tokenType == "" || Category(p.contractType).Name() == args.tokenType)
  {
    ParseExactly(f.name);
    && IsCandidateFile(f.name)
    && !f.content.Unparsable?
    && ParseDeploymentFileName(f.name).Some?
    && var p := ParseDeploymentFileName(f.name).value;
      && (args.marketPair == "" || p.marketPair == args.marketPair)
      && (args.tokenType == "" || Category(p.contractType).Name() == args.tokenType)
  }

  /** A selected file whose market pair is `pair`: scanning it opens that pair's group. */
  predicate OpensPair(f: DeploymentFile, args: ValidateArgs, pair: string) {
    Selected(f, args) && ParseDeploymentFileName(f.name).value.marketPair == pair
  }

  /** A selected file whose content is not `null`, so that its `address` can be read. */
  predicate Recorded(f: DeploymentFile, args: ValidateArgs) {
    Selected(f, args) && f.content.Parsed?
  }

  /** The deployment a recorded file contributes on a network with endpoint id `eid`. */
  function Collected(network: string, eid: int, f: DeploymentFile, args: ValidateArgs): Entry<DeploymentInfo>
    requires Recorded(f, args)
  {
    var p := ParseDeploymentFileName(f.name).value;
    Entry(p.marketPair, Category(p.contractType), DeploymentInfo(network, f.content.address, p.role, eid))
  }

  /** The reference definition of one directory's contribution: nothing without an
      endpoint id, otherwise one deployment per recorded file, in file order. */
  function CollectedIn(network: string, eid: Option<int>, files: seq<DeploymentFile>, args: ValidateArgs)
    : (r: seq<Entry<DeploymentInfo>>)
    ensures |r| == if eid.Some? then |Seqs.Filter(files, (f: DeploymentFile) => Recorded(f, args))| else 0
    ensures forall e :: e in r <==>
      eid.Some? && exists f :: f in files && Recorded(f, args) && e == Collected(network, eid.value, f, args)
  {
    if |files| == 0 || eid.None? then []
    else
      assert forall f :: f in files <==> f == files[0] || f in files[1..] by {
        assert files == [files[0]] + files[1..];
      }
      (if Recorded(files[0], args) then [Collected(network, eid.value, files[0], args)] else [])
        + CollectedIn(network, eid, files[1..], args)
  }

  /** The reference definition of the whole scan: the directories of `networks` in order. */
  function CollectedAcross(dirs: seq<NetworkDir>, networks: seq<string>, networkEids: map<string, int>, args: ValidateArgs)
    : (r: seq<Entry<DeploymentInfo>>)
    ensures forall e :: e in r <==> exists n :: n in networks && e in CollectedIn(n, EidOf(networkEids, n), FilesOf(dirs, n), args)
  {
    if |networks| == 0 then []
    else
      assert forall n :: n in networks <==> n == networks[0] || n in networks[1..] by {
        assert networks == [networks[0]] + networks[1..];
      }
      CollectedIn(networks[0], EidOf(networkEids, networks[0]), FilesOf(dirs, networks[0]), args)
        + CollectedAcross(dirs, networks[1..], networkEids, args)
  }

  /** Some file among `files` opens `pair`. */
  predicate OpensAmong(files: seq<DeploymentFile>, args: ValidateArgs, pair: string) {
    exists f :: f in files && OpensPair(f, args, pair)
  }

  /** Some file of a directory among `networks` opens `pair`. */
  predicate OpensAcross(dirs: seq<NetworkDir>, networks: seq<string>, args: ValidateArgs, pair: string) {
    exists n :: n in networks && OpensAmong(FilesOf(dirs, n), args, pair)
  }

  /** Some directory among `networks` holds a selected file. */
  predicate AnySelected(dirs: seq<NetworkDir>, networks: seq<string>, args: ValidateArgs) {
    exists n, f :: n in networks && f in FilesOf(dirs, n) && Selected(f, args)
  }

  /** `after` is `before` followed by deployments found on `network` with id `eid`. */
  predicate BucketExtends(before: seq<DeploymentInfo>, after: seq<DeploymentInfo>, network: string, eid: Option<int>) {
    && |before| <= |after|
    && after[..|before|] == before
    && (forall k :: |before| <= k < |after| ==> after[k].network == network && Some(after[k].eid) == eid)
  }

  /** Every bucket of `r` extends the same bucket of `g`. */
  ghost predicate Extends(g: Grouped<DeploymentInfo>, r: Grouped<DeploymentInfo>, network: string, eid: Option<int>) {
    forall p, t :: BucketExtends(BucketOf(g, p, t), BucketOf(r, p, t), network, eid)
  }

  /** One file of the scan. A selected file opens its pair's group even when its
      network has no endpoint id or its content is `null`; only with an id and a
      readable `address` is the deployment kept. */
  function ScanFile(g: Grouped<DeploymentInfo>, network: string, eid: Option<int>, f: DeploymentFile, args: ValidateArgs)
    : (r: Grouped<DeploymentInfo>)
    requires UniquePairs(g)
    ensures UniquePairs(r)
    ensures Total(r) == Total(g) + (if eid.Some? && Recorded(f, args) then 1 else 0)
    ensures Extends(g, r, network, eid)
    ensures forall p, t :: BucketOf(r, p, t) == BucketOf(g, p, t) + Select(CollectedIn(network, eid, [f], args), p, t)
    ensures forall p :: p in Pairs(r) <==> p in Pairs(g) || OpensPair(f, args, p)
  {
    CollectedOne(network, eid, f, args);
    if !Selected(f, args) then g
    else
      var p := ParseDeploymentFileName(f.name).value;
      var touched := Touch(g, p.marketPair);
      SameBucketsExtend(g, touched, network, eid);
      if eid.None? || !f.content.Parsed? then touched
      else
        var e := eid.value;
        var x := DeploymentInfo(network, f.content.address, p.role, e);
        PushExtends(touched, p.marketPair, Category(p.contractType), x);
        SelectOne(Collected(network, e, f, args));
        ExtendsTransitive(g, touched, Push(touched, p.marketPair, Category(p.contractType), x), network, eid);
        Push(touched, p.marketPair, Category(p.contractType), x)
  }

  /** A one-file directory contributes its file exactly when the file is selected and there is an id. */
  lemma CollectedOne(network: string, eid: Option<int>, f: DeploymentFile, args: ValidateArgs)
    ensures CollectedIn(network, eid, [f], args) == if eid.Some? && Recorded(f, args) then [Collected(network, eid.value, f, args)] else []
  {
    assert [f][1..] == [];
  }

  lemma SelectOne<T>(x: Entry<T>)
    ensures forall p, t :: Select([x], p, t) == if x.pair == p && x.category == t then [x.info] else []
  {
    assert [x][1..] == [];
  }

  lemma SameBucketsExtend(g: Grouped<DeploymentInfo>, r: Grouped<DeploymentInfo>, network: string, eid: Option<int>)
    requires forall p, t :: BucketOf(r, p, t) == BucketOf(g, p, t)
    ensures Extends(g, r, network, eid)
  {
    forall p, t ensures BucketExtends(BucketOf(g, p, t), BucketOf(r, p, t), network, eid) {
      var b := BucketOf(g, p, t);
      assert b[..|b|] == b;
    }
  }

  lemma PushExtends(g: Grouped<DeploymentInfo>, pair: string, t: TokenType, x: DeploymentInfo)
    requires UniquePairs(g) && pair in Pairs(g)
    ensures Extends(g, Push(g, pair, t, x), x.network, Some(x.eid))
  {
    var r := Push(g, pair, t, x);
    forall p, t' ensures BucketExtends(BucketOf(g, p, t'), BucketOf(r, p, t'), x.network, Some(x.eid)) {
      var b := BucketOf(g, p, t');
      assert BucketOf(r, p, t') == b + (if p == pair && t' == t then [x] else []);
      assert BucketOf(r, p, t')[..|b|] == b;
    }
  }

  /** The loop over one directory's files: with no endpoint id nothing is kept,
      otherwise exactly the selected files are. */
  function ScanFiles(g: Grouped<DeploymentInfo>, network: string, eid: Option<int>, files: seq<DeploymentFile>, args: ValidateArgs)
    : (r: Grouped<DeploymentInfo>)
    requires UniquePairs(g)
    ensures UniquePairs(r)
    ensures Total(r) == Total(g) + (if eid.Some? then |Seqs.Filter(files, (f: DeploymentFile) => Recorded(f, args))| else 0)
    ensures Extends(g, r, network, eid)
    ensures forall p, t :: BucketOf(r, p, t) == BucketOf(g, p, t) + Select(CollectedIn(network, eid, files, args), p, t)
    ensures forall p :: p in Pairs(r) <==> p in Pairs(g) || OpensAmong(files, args, p)
    decreases |files|
  {
    if |files| == 0 then g
    else
      var g1 := ScanFile(g, network, eid, files[0], args);
      var r := ScanFiles(g1, network, eid, files[1..], args);
      ExtendsTransitive(g, g1, r, network, eid);
      ScanFilesStep(g, g1, r, network, eid, files, args);
      r
  }

  lemma ScanFilesStep(g: Grouped<DeploymentInfo>, g1: Grouped<DeploymentInfo>, r: Grouped<DeploymentInfo>,
                      network: string, eid: Option<int>, files: seq<DeploymentFile>, args: ValidateArgs)
    requires |files| > 0
    requires forall p, t :: BucketOf(g1, p, t) == BucketOf(g, p, t) + Select(CollectedIn(network, eid, [files[0]], args), p, t)
    requires forall p :: p in Pairs(g1) <==> p in Pairs(g) || OpensPair(files[0], args, p)
    requires forall p, t :: BucketOf(r, p, t) == BucketOf(g1, p, t) + Select(CollectedIn(network, eid, files[1..], args), p, t)
    requires forall p :: p in Pairs(r) <==> p in Pairs(g1) || OpensAmong(files[1..], args, p)
    ensures forall p, t :: BucketOf(r, p, t) == BucketOf(g, p, t) + Select(CollectedIn(network, eid, files, args), p, t)
    ensures forall p :: p in Pairs(r) <==> p in Pairs(g) || OpensAmong(files, args, p)
  {
    assert files == [files[0]] + files[1..];
    assert CollectedIn(network, eid, files, args)
      == CollectedIn(network, eid, [files[0]], args) + CollectedIn(network, eid, files[1..], args) by {
      CollectedOne(network, eid, files[0], args);
    }
    SelectAppend(CollectedIn(network, eid, [files[0]], args), CollectedIn(network, eid, files[1..], args));
  }

  lemma ExtendsTransitive(g0: Grouped<DeploymentInfo>, g1: Grouped<DeploymentInfo>, g2: Grouped<DeploymentInfo>, network: string, eid: Option<int>)
    requires Extends(g0, g1, network, eid) && Extends(g1, g2, network, eid)
    ensures Extends(g0, g2, network, eid)
  {
    forall p, t ensures BucketExtends(BucketOf(g0, p, t), BucketOf(g2, p, t), network, eid) {
      BucketExtendsTransitive(BucketOf(g0, p, t), BucketOf(g1, p, t), BucketOf(g2, p, t), network, eid);
    }
  }

  lemma BucketExtendsTransitive(b0: seq<DeploymentInfo>, b1: seq<DeploymentInfo>, b2: seq<DeploymentInfo>, network: string, eid: Option<int>)
    requires BucketExtends(b0, b1, network, eid) && BucketExtends(b1, b2, network, eid)
    ensures BucketExtends(b0, b2, network, eid)
  {
    assert b2[..|b0|] == b2[..|b1|][..|b0|];
    forall k | |b0| <= k < |b2| ensures b2[k].network == network && Some(b2[k].eid) == eid {
      if k < |b1| {
        assert b2[k] == b2[..|b1|][k];
        assert b1[k].network == network;
      }
    }
  }

  /** `after` is `before` followed by deployments found on `networks`, each
      carrying its network's endpoint id. */
  predicate ScannedFrom(before: seq<DeploymentInfo>, after: seq<DeploymentInfo>, networks: seq<string>, networkEids: map<string, int>) {
    && |before| <= |after|
    && after[..|before|] == before
    && (forall k :: |before| <= k < |after| ==>
          after[k].network in networks && EidOf(networkEids, after[k].network) == Some(after[k].eid))
  }

  /** The scan over every network to scan, in order: a network without an
      endpoint id contributes nothing. */
  function ScanNetworks(g: Grouped<DeploymentInfo>, dirs: seq<NetworkDir>, networks: seq<string>,
                        networkEids: map<string, int>, args: ValidateArgs): (r: Grouped<DeploymentInfo>)
    requires UniquePairs(g)
    ensures UniquePairs(r)
    ensures forall p, t :: ScannedFrom(BucketOf(g, p, t), BucketOf(r, p, t), networks, networkEids)
    ensures forall p, t :: BucketOf(r, p, t) == BucketOf(g, p, t) + Select(CollectedAcross(dirs, networks, networkEids, args), p, t)
    ensures forall p :: p in Pairs(r) <==> p in Pairs(g) || OpensAcross(dirs, networks, args, p)
    ensures Total(r) == Total(g) + |CollectedAcross(dirs, networks, networkEids, args)|
    decreases |networks|
  {
    if |networks| == 0 then
      assert forall p, t :: BucketOf(g, p, t)[..|BucketOf(g, p, t)|] == BucketOf(g, p, t);
      assert forall p, t :: BucketOf(g, p, t) + [] == BucketOf(g, p, t);
      g
    else
      var n := networks[0];
      var g1 := ScanFiles(g, n, EidOf(networkEids, n), FilesOf(dirs, n), args);
      var r := ScanNetworks(g1, dirs, networks[1..], networkEids, args);
      forall p, t ensures ScannedFrom(BucketOf(g, p, t), BucketOf(r, p, t), networks, networkEids) {
        ScannedChain(BucketOf(g, p, t), BucketOf(g1, p, t), BucketOf(r, p, t), networks, networkEids);
      }
      ScanNetworksBuckets(g, g1, r, dirs, networks, networkEids, args);
      ScanNetworksPairs(g, g1, r, dirs, networks, args);
      r
  }

  lemma ScanNetworksBuckets(g: Grouped<DeploymentInfo>, g1: Grouped<DeploymentInfo>, r: Grouped<DeploymentInfo>,
                            dirs: seq<NetworkDir>, networks: seq<string>, networkEids: map<string, int>, args: ValidateArgs)
    requires |networks| > 0
    requires var n := networks[0];
      forall p, t :: BucketOf(g1, p, t) == BucketOf(g, p, t) + Select(CollectedIn(n, EidOf(networkEids, n), FilesOf(dirs, n), args), p, t)
    requires forall p, t :: BucketOf(r, p, t) == BucketOf(g1, p, t) + Select(CollectedAcross(dirs, networks[1..], networkEids, args), p, t)
    ensures forall p, t :: BucketOf(r, p, t) == BucketOf(g, p, t) + Select(CollectedAcross(dirs, networks, networkEids, args), p, t)
  {
    var n := networks[0];
    SelectAppend(CollectedIn(n, EidOf(networkEids, n), FilesOf(dirs, n), args), CollectedAcross(dirs, networks[1..], networkEids, args));
  }

  lemma ScanNetworksPairs(g: Grouped<DeploymentInfo>, g1: Grouped<DeploymentInfo>, r: Grouped<DeploymentInfo>,
                          dirs: seq<NetworkDir>, networks: seq<string>, args: ValidateArgs)
    requires |networks| > 0
    requires forall p :: p in Pairs(g1) <==> p in Pairs(g) || OpensAmong(FilesOf(dirs, networks[0]), args, p)
    requires forall p :: p in Pairs(r) <==> p in Pairs(g1) || OpensAcross(dirs, networks[1..], args, p)
    ensures forall p :: p in Pairs(r) <==> p in Pairs(g) || OpensAcross(dirs, networks, args, p)
  {
    assert forall m :: m in networks <==> m == networks[0] || m in networks[1..] by {
      assert networks == [networks[0]] + networks[1..];
    }
  }

  lemma ScannedChain(b0: seq<DeploymentInfo>, b1: seq<DeploymentInfo>, b2: seq<DeploymentInfo>,
                     networks: seq<string>, networkEids: map<string, int>)
    requires |networks| > 0
    requires BucketExtends(b0, b1, networks[0], EidOf(networkEids, networks[0]))
    requires ScannedFrom(b1, b2, networks[1..], networkEids)
    ensures ScannedFrom(b0, b2, networks, networkEids)
  {
    assert b2[..|b0|] == b2[..|b1|][..|b0|];
    forall k | |b0| <= k < |b2|
      ensures b2[k].network in networks && EidOf(networkEids, b2[k].network) == Some(b2[k].eid)
    {
      if k < |b1| {
        assert b2[k] == b2[..|b1|][k];
        assert b1[k].network == networks[0];
      } else {
        assert b2[k].network in networks[1..];
      }
    }
  }

  /** The source→target contract pairs quoted for one group: every source
      contract against every target contract, except on the same network. */
  function TestPairs(sources: seq<DeploymentInfo>, targets: seq<DeploymentInfo>): (r: seq<(DeploymentInfo, DeploymentInfo)>)
    ensures forall x :: x in r <==> x.0 in sources && x.1 in targets && x.0.network != x.1.network
  {
    if |sources| == 0 then []
    else
      var src := sources[0];
      var row := Seqs.Filter(targets, (dst: DeploymentInfo) => src.network != dst.network);
      var rowPairs := seq(|row|, k requires 0 <= k < |row| => (src, row[k]));
      var rest := TestPairs(sources[1..], targets);
      assert forall x :: x in rowPairs <==> x.0 == src && x.1 in targets && src.network != x.1.network by {
        forall x ensures x in rowPairs <==> x.0 == src && x.1 in targets && src.network != x.1.network {
          if x.0 == src && x.1 in row {
            var k :| 0 <= k < |row| && row[k] == x.1;
            assert rowPairs[k] == x;
          }
        }
      }
      assert forall s :: s in sources <==> s == src || s in sources[1..] by {
        assert sources == [src] + sources[1..];
      }
      rowPairs + rest
  }

  /** Quotes go both ways between two networks that are each a source and a target. */
  lemma BothDirectionsTested(s: DeploymentInfo, d: DeploymentInfo, sources: seq<DeploymentInfo>, targets: seq<DeploymentInfo>)
    requires s in sources && s in targets && d in sources && d in targets && s.network != d.network
    ensures (s, d) in TestPairs(sources, targets) && (d, s) in TestPairs(sources, targets)
  {
  }

  /** A group of a market pair and token category: passed over for having fewer
      than two contracts, or quoted on its contract pairs. */
  datatype GroupOutcome =
    | Skipped(marketPair: string, tokenType: TokenType, found: nat)
    | Tested(marketPair: string, tokenType: TokenType, pairs: seq<(DeploymentInfo, DeploymentInfo)>)

  /** The pairs quoted for one group: its contracts on a source network against
      its contracts on a target network, never within one network. */
  function Quotes(contracts: seq<DeploymentInfo>, sources: seq<string>, targets: seq<string>)
    : (r: seq<(DeploymentInfo, DeploymentInfo)>)
    ensures forall x :: x in r <==>
      && x.0 in contracts && x.0.network in sources
      && x.1 in contracts && x.1.network in targets
      && x.0.network != x.1.network
  {
    TestPairs(Seqs.Filter(contracts, (c: DeploymentInfo) => c.network in sources),
              Seqs.Filter(contracts, (c: DeploymentInfo) => c.network in targets))
  }

  /** What an outcome says about the contracts of its group: a skip reports
      their number, which is one; a test quotes their pairs, of which there are at least two. */
  predicate OutcomeOf(o: GroupOutcome, contracts: seq<DeploymentInfo>, sources: seq<string>, targets: seq<string>) {
    match o
    case Skipped(_, _, found) => 0 < found < 2 && found == |contracts|
    case Tested(_, _, pairs) => |contracts| >= 2 && pairs == Quotes(contracts, sources, targets)
  }

  /** The GM then GLV groups of one market pair; an empty group is passed over silently. */
  function GroupOutcomes(pair: string, b: Buckets<DeploymentInfo>, sources: seq<string>, targets: seq<string>): (r: seq<GroupOutcome>)
    ensures forall o :: o in r ==> o.marketPair == pair && OutcomeOf(o, b.Of(o.tokenType), sources, targets)
    ensures forall t :: |b.Of(t)| >= 2 ==> Tested(pair, t, Quotes(b.Of(t), sources, targets)) in r
    ensures forall t :: 0 < |b.Of(t)| < 2 ==> Skipped(pair, t, |b.Of(t)|) in r
  {
    var gm := OutcomeFor(pair, GM, b.gm, sources, targets);
    var glv := OutcomeFor(pair, GLV, b.glv, sources, targets);
    assert b.Of(GM) == b.gm && b.Of(GLV) == b.glv;
    gm + glv
  }

  function OutcomeFor(pair: string, t: TokenType, contracts: seq<DeploymentInfo>, sources: seq<string>, targets: seq<string>)
    : (r: seq<GroupOutcome>)
    ensures |contracts| == 0 ==> r == []
    ensures 0 < |contracts| < 2 ==> r == [Skipped(pair, t, |contracts|)]
    ensures |contracts| >= 2 ==> |r| == 1 && r[0].Tested? && r[0].tokenType == t && r[0].marketPair == pair
    ensures |contracts| >= 2 ==> forall x :: x in r[0].pairs <==>
      && x.0 in contracts && x.0.network in sources
      && x.1 in contracts && x.1.network in targets
      && x.0.network != x.1.network
    ensures forall o :: o in r ==> o.marketPair == pair && o.tokenType == t && OutcomeOf(o, contracts, sources, targets)
  {
    if |contracts| == 0 then []
    else if |contracts| < 2 then [Skipped(pair, t, |contracts|)]
    else [Tested(pair, t, Quotes(contracts, sources, targets))]
  }

  /** Every group of every market pair, pair by pair. Each outcome describes
      the contracts grouped under its pair and category, and every non-empty
      group has its outcome. */
  function AllOutcomes(g: Grouped<DeploymentInfo>, sources: seq<string>, targets: seq<string>): (r: seq<GroupOutcome>)
    requires UniquePairs(g)
    ensures forall o :: o in r ==> OutcomeOf(o, BucketOf(g, o.marketPair, o.tokenType), sources, targets)
    ensures forall p, t :: |BucketOf(g, p, t)| >= 2 ==> Tested(p, t, Quotes(BucketOf(g, p, t), sources, targets)) in r
    ensures forall p, t :: 0 < |BucketOf(g, p, t)| < 2 ==> Skipped(p, t, |BucketOf(g, p, t)|) in r
  {
    if |g| == 0 then []
    else
      UniqueTail(g);
      var head := GroupOutcomes(g[0].0, g[0].1, sources, targets);
      var rest := AllOutcomes(g[1..], sources, targets);
      AllOutcomesStep(g, head, rest, sources, targets);
      head + rest
  }

  /** An outcome is about a group that holds contracts. */
  lemma OutcomeNonEmpty(o: GroupOutcome, contracts: seq<DeploymentInfo>, sources: seq<string>, targets: seq<string>)
    requires OutcomeOf(o, contracts, sources, targets)
    ensures |contracts| > 0
  {
  }

  lemma AllOutcomesStep(g: Grouped<DeploymentInfo>, head: seq<GroupOutcome>, rest: seq<GroupOutcome>,
                        sources: seq<string>, targets: seq<string>)
    requires UniquePairs(g) && |g| > 0 && g[0].0 !in Pairs(g[1..])
    requires forall o :: o in head ==> o.marketPair == g[0].0 && OutcomeOf(o, g[0].1.Of(o.tokenType), sources, targets)
    requires forall t :: |g[0].1.Of(t)| >= 2 ==> Tested(g[0].0, t, Quotes(g[0].1.Of(t), sources, targets)) in head
    requires forall t :: 0 < |g[0].1.Of(t)| < 2 ==> Skipped(g[0].0, t, |g[0].1.Of(t)|) in head
    requires forall o :: o in rest ==> OutcomeOf(o, BucketOf(g[1..], o.marketPair, o.tokenType), sources, targets)
    requires forall p, t :: |BucketOf(g[1..], p, t)| >= 2 ==> Tested(p, t, Quotes(BucketOf(g[1..], p, t), sources, targets)) in rest
    requires forall p, t :: 0 < |BucketOf(g[1..], p, t)| < 2 ==> Skipped(p, t, |BucketOf(g[1..], p, t)|) in rest
    ensures forall o :: o in head + rest ==> OutcomeOf(o, BucketOf(g, o.marketPair, o.tokenType), sources, targets)
    ensures forall p, t :: |BucketOf(g, p, t)| >= 2 ==> Tested(p, t, Quotes(BucketOf(g, p, t), sources, targets)) in head + rest
    ensures forall p, t :: 0 < |BucketOf(g, p, t)| < 2 ==> Skipped(p, t, |BucketOf(g, p, t)|) in head + rest
  {
    forall o | o in rest ensures o.marketPair != g[0].0 {
      OutcomeNonEmpty(o, BucketOf(g[1..], o.marketPair, o.tokenType), sources, targets);
      if o.marketPair == g[0].0 {
        BucketOfAbsent(g[1..], o.marketPair, o.tokenType);
      }
    }
  }

  /** Why the task stops: no `deployments/` directory, a requested network
      without a directory, or nothing collected. */
  datatype ValidateStop =
    | NoDeploymentsDirectory
    | NetworksNotFound(missing: seq<string>, available: seq<string>)
    | NoDeploymentsToValidate

  /** The validate task on the directories of `deployments/` (`None`: no such directory). */
  function ValidateDeployments(deployments: Option<seq<NetworkDir>>, args: ValidateArgs, networkEids: map<string, int>)
    : (r: Result<seq<GroupOutcome>, ValidateStop>)
    ensures deployments.None? ==> r == Failure(NoDeploymentsDirectory)
    // a requested network without a directory stops the task before anything is scanned
    ensures (&& deployments.Some? && args.filterNetworks.Some?
             && exists n :: n in args.filterNetworks.value && n !in DirNames(deployments.value)) ==>
      r.Failure? && r.error.NetworksNotFound? && r.error.available == DirNames(deployments.value)
      && (forall n :: n in r.error.missing <==> n in args.filterNetworks.value && n !in DirNames(deployments.value))
    ensures r.Success? ==> forall o, x :: o in r.value && o.Tested? && x in o.pairs ==>
      && x.0.network != x.1.network
      && x.0.network in SourceNetworks(DirNames(deployments.value), args)
      && x.1.network in TargetNetworks(DirNames(deployments.value), args)
      // the source is reached through its own endpoint id and the quote names the target's
      && Registered(x.0, networkEids) && Registered(x.1, networkEids)
    // with every requested network present, the task goes on exactly when a scanned directory holds a selected file
    ensures (&& deployments.Some?
             && (args.filterNetworks.None? || forall n :: n in args.filterNetworks.value ==> n in DirNames(deployments.value))) ==>
      (r.Success? <==> AnySelected(deployments.value, NetworksToScan(DirNames(deployments.value), args), args))
    ensures r.Success? ==>
      var all := DirNames(deployments.value);
      Covers(r.value, CollectedAcross(deployments.value, NetworksToScan(all, args), networkEids, args),
             SourceNetworks(all, args), TargetNetworks(all, args))
  {
    match deployments
    case None => Failure(NoDeploymentsDirectory)
    case Some(dirs) =>
      var all := DirNames(dirs);
      var missing := if args.filterNetworks.Some? then MissingNetworks(all, args.filterNetworks.value) else [];
      if |missing| > 0 then
        assert missing[0] in missing;
        Failure(NetworksNotFound(missing, all))
      else ValidateScanned(dirs, args, networkEids)
  }

  /** The task once every requested network has a directory: scan, then test each group. */
  function ValidateScanned(dirs: seq<NetworkDir>, args: ValidateArgs, networkEids: map<string, int>)
    : (r: Result<seq<GroupOutcome>, ValidateStop>)
    ensures r.Failure? ==> r.error == NoDeploymentsToValidate
    ensures r.Failure? <==> !AnySelected(dirs, NetworksToScan(DirNames(dirs), args), args)
    ensures r.Success? ==>
      var all := DirNames(dirs);
      Covers(r.value, CollectedAcross(dirs, NetworksToScan(all, args), networkEids, args),
             SourceNetworks(all, args), TargetNetworks(all, args))
    ensures r.Success? ==> forall o, x :: o in r.value && o.Tested? && x in o.pairs ==>
      && x.0.network != x.1.network
      && x.0.network in SourceNetworks(DirNames(dirs), args)
      && x.1.network in TargetNetworks(DirNames(dirs), args)
      && Registered(x.0, networkEids) && Registered(x.1, networkEids)
  {
    var all := DirNames(dirs);
    var scanned := NetworksToScan(all, args);
    var grouped := ScanNetworks([], dirs, scanned, networkEids, args);
    EmptyScanIffNothingSelected(grouped, dirs, scanned, args);
    if |grouped| == 0 then Failure(NoDeploymentsToValidate)
    else
      var sources, targets := SourceNetworks(all, args), TargetNetworks(all, args);
      ScanCovered(grouped, CollectedAcross(dirs, scanned, networkEids, args), sources, targets);
      AllOutcomesSound(grouped, sources, targets);
      ScanRegistered(grouped, scanned, networkEids);
      AllOutcomesRegistered(grouped, sources, targets, networkEids);
      Success(AllOutcomes(grouped, sources, targets))
  }

  /** The outcomes describe the grouping of `es`: every outcome agrees with the
      contracts `es` holds for its pair and category, and every non-empty group has one. */
  ghost predicate Covers(outcomes: seq<GroupOutcome>, es: seq<Entry<DeploymentInfo>>, sources: seq<string>, targets: seq<string>) {
    && (forall o :: o in outcomes ==> OutcomeOf(o, Select(es, o.marketPair, o.tokenType), sources, targets))
    && (forall p, t :: |Select(es, p, t)| >= 2 ==> Tested(p, t, Quotes(Select(es, p, t), sources, targets)) in outcomes)
    && (forall p, t :: 0 < |Select(es, p, t)| < 2 ==> Skipped(p, t, |Select(es, p, t)|) in outcomes)
  }

  /** The scan ends with no group exactly when no scanned directory holds a selected file. */
  lemma EmptyScanIffNothingSelected(grouped: Grouped<DeploymentInfo>, dirs: seq<NetworkDir>, networks: seq<string>, args: ValidateArgs)
    requires forall p :: p in Pairs(grouped) <==> p in Pairs<DeploymentInfo>([]) || OpensAcross(dirs, networks, args, p)
    ensures |grouped| == 0 <==> !AnySelected(dirs, networks, args)
  {
    assert Pairs<DeploymentInfo>([]) == [];
    if |grouped| > 0 {
      assert Pairs(grouped)[0] == grouped[0].0;
      assert grouped[0].0 in Pairs(grouped);
      assert OpensAcross(dirs, networks, args, grouped[0].0);
      var n :| n in networks && OpensAmong(FilesOf(dirs, n), args, grouped[0].0);
      var f :| f in FilesOf(dirs, n) && OpensPair(f, args, grouped[0].0);
    }
    if AnySelected(dirs, networks, args) {
      var n, f :| n in networks && f in FilesOf(dirs, n) && Selected(f, args);
      var p := ParseDeploymentFileName(f.name).value.marketPair;
      assert OpensPair(f, args, p) && OpensAmong(FilesOf(dirs, n), args, p);
      assert p in Pairs(grouped);
    }
  }

  lemma ScanCovered(grouped: Grouped<DeploymentInfo>, es: seq<Entry<DeploymentInfo>>, sources: seq<string>, targets: seq<string>)
    requires UniquePairs(grouped)
    requires forall p, t :: BucketOf(grouped, p, t) == BucketOf<DeploymentInfo>([], p, t) + Select(es, p, t)
    ensures Covers(AllOutcomes(grouped, sources, targets), es, sources, targets)
  {
    assert forall p, t :: BucketOf(grouped, p, t) == Select(es, p, t);
  }

  lemma {:induction false} AllOutcomesSound(g: Grouped<DeploymentInfo>, sources: seq<string>, targets: seq<string>)
    requires UniquePairs(g)
    ensures forall o, x :: o in AllOutcomes(g, sources, targets) && o.Tested? && x in o.pairs ==>
      x.0.network != x.1.network && x.0.network in sources && x.1.network in targets
  {
    if |g| > 0 {
      UniqueTail(g);
      AllOutcomesSound(g[1..], sources, targets);
      var b := g[0].1;
      var gm := OutcomeFor(g[0].0, GM, b.gm, sources, targets);
      var glv := OutcomeFor(g[0].0, GLV, b.glv, sources, targets);
      forall o: GroupOutcome, x: (DeploymentInfo, DeploymentInfo) | o in gm + glv && o.Tested? && x in o.pairs
        ensures x.0.network != x.1.network && x.0.network in sources && x.1.network in targets
      {
        if o in gm {
          assert o == gm[0];
        } else {
          assert o == glv[0];
        }
      }
    }
  }

  /** A collected deployment carries the endpoint id configured for its network. */
  predicate Registered(d: DeploymentInfo, networkEids: map<string, int>) {
    EidOf(networkEids, d.network) == Some(d.eid)
  }

  ghost predicate AllRegistered(g: Grouped<DeploymentInfo>, networkEids: map<string, int>) {
    forall k, t, d :: 0 <= k < |g| && d in g[k].1.Of(t) ==> Registered(d, networkEids)
  }

  lemma ScanRegistered(g: Grouped<DeploymentInfo>, networks: seq<string>, networkEids: map<string, int>)
    requires UniquePairs(g)
    requires forall p, t :: ScannedFrom(BucketOf([], p, t), BucketOf(g, p, t), networks, networkEids)
    ensures AllRegistered(g, networkEids)
  {
    forall k, t, d | 0 <= k < |g| && d in g[k].1.Of(t) ensures Registered(d, networkEids) {
      BucketOfSeen(g, g[k].0, t, k);
      var b := BucketOf(g, g[k].0, t);
      assert ScannedFrom(BucketOf([], g[k].0, t), b, networks, networkEids);
      var i :| 0 <= i < |b| && b[i] == d;
    }
  }

  lemma {:induction false} AllOutcomesRegistered(g: Grouped<DeploymentInfo>, sources: seq<string>, targets: seq<string>,
                                                 networkEids: map<string, int>)
    requires UniquePairs(g) && AllRegistered(g, networkEids)
    ensures forall o, x :: o in AllOutcomes(g, sources, targets) && o.Tested? && x in o.pairs ==>
      Registered(x.0, networkEids) && Registered(x.1, networkEids)
  {
    if |g| > 0 {
      assert AllRegistered(g[1..], networkEids) by {
        forall k, t, d | 0 <= k < |g[1..]| && d in g[1..][k].1.Of(t) ensures Registered(d, networkEids) {
          assert g[1..][k] == g[k + 1];
        }
      }
      UniqueTail(g);
      AllOutcomesRegistered(g[1..], sources, targets, networkEids);
      var b := g[0].1;
      var gm := OutcomeFor(g[0].0, GM, b.gm, sources, targets);
      var glv := OutcomeFor(g[0].0, GLV, b.glv, sources, targets);
      forall o: GroupOutcome, x: (DeploymentInfo, DeploymentInfo) | o in gm + glv && o.Tested? && x in o.pairs
        ensures Registered(x.0, networkEids) && Registered(x.1, networkEids)
      {
        if o in gm {
          assert o == gm[0];
          assert b.Of(GM) == b.gm;
        } else {
          assert o == glv[0];
          assert b.Of(GLV) == b.glv;
        }
      }
    }
  }
}

=== FILE: wire_generator.dfy ===
/** The wire generator: for one token of a market pair, the contract per
    participating network and the two-way pathway between every two of them,
    each carrying the DVN set, both sides' confirmation depths and the
    enforced options each side receives with. */
module WireGenerator {
  import opened Wrappers
  import opened Types
  import opened LayerZero
  import opened Networks
  import opened Tokens
  import opened DeployUtils
  import opened Naming
  import opened PairEnumeration
  import Seqs

  /** A contract to wire: the network and the deployment name there. */
  datatype OmniPoint = OmniPoint(eid: Eid, contractName: string)

  /** A contract with the owner and delegate it is handed to (`undefined` when unlisted). */
  datatype ContractEntry = ContractEntry(contract: OmniPoint, owner: Option<string>, delegate: Option<string>)

  /** A two-way pathway `[A, B, dvns, [confirmations A, confirmations B], [options 0, options 1]]`.
      Enforced-option slot 0 belongs to chain B and slot 1 to chain A. */
  datatype Pathway = Pathway(
    a: OmniPoint,
    b: OmniPoint,
    dvns: DvnConfig,
    confirmations: (Option<nat>, Option<nat>),
    enforcedOptions: (seq<EnforcedOption>, seq<EnforcedOption>))

  /** What the wire generator hands to the connection-config builder. */
  datatype WireGraph = WireGraph(contracts: seq<ContractEntry>, connections: seq<Pathway>)

  /** `createContracts`: one entry per contract, in order, owned and delegated
      to the network's configured owner. */
  function CreateContracts(points: seq<OmniPoint>): (r: seq<ContractEntry>)
    ensures |r| == |points|
    ensures forall k :: 0 <= k < |r| ==>
      && r[k].contract == points[k]
      && r[k].owner == r[k].delegate == OwnershipTransfer(points[k].eid)
  {
    if |points| == 0 then []
    else
      var owner := OwnershipTransfer(points[0].eid);
      [ContractEntry(points[0], owner, owner)] + CreateContracts(points[1..])
  }

  datatype Side = SideA | SideB

  /** The enforced options a side receives with: slot 0 is chain B's, slot 1 chain A's. */
  function ReceivedBy(opts: (seq<EnforcedOption>, seq<EnforcedOption>), side: Side): seq<EnforcedOption> {
    if side == SideB then opts.0 else opts.1
  }

  /** The policy for messages arriving at the hub or at a spoke. */
  function ReceivePolicy(receiverIsHub: bool): seq<EnforcedOption> {
    if receiverIsHub then TO_HUB else TO_SPOKE
  }

  /** `getEnforcedOptions`: on a hub/spoke pathway the hub side receives with the
      hub policy and the spoke side with the spoke policy, whichever side the hub
      is on; otherwise (no hub, or both ends on the hub) both sides get the spoke policy. */
  function GetEnforcedOptions(a: OmniPoint, b: OmniPoint, hubEid: Eid): (r: (seq<EnforcedOption>, seq<EnforcedOption>))
    ensures (a.eid == hubEid) != (b.eid == hubEid) ==>
      && ReceivedBy(r, SideA) == ReceivePolicy(a.eid == hubEid)
      && ReceivedBy(r, SideB) == ReceivePolicy(b.eid == hubEid)
    ensures (a.eid == hubEid) == (b.eid == hubEid) ==> ReceivedBy(r, SideA) == ReceivedBy(r, SideB) == TO_SPOKE
  {
    var isAHub := a.eid == hubEid;
    var isBHub := b.eid == hubEid;
    if isAHub && !isBHub then (TO_SPOKE, TO_HUB)
    else if !isAHub && isBHub then (TO_HUB, TO_SPOKE)
    else (TO_SPOKE, TO_SPOKE)
  }

  /** On a hub/spoke pathway only the hub side's options hold a compose budget;
      on a spoke/spoke pathway both sides' options are identical. */
  lemma ComposeBudgetGoesToHub(a: OmniPoint, b: OmniPoint, hubEid: Eid)
    ensures var r := GetEnforcedOptions(a, b, hubEid);
      (a.eid == hubEid) != (b.eid == hubEid) ==>
        && HasCompose(ReceivedBy(r, if a.eid == hubEid then SideA else SideB))
        && !HasCompose(ReceivedBy(r, if a.eid == hubEid then SideB else SideA))
    ensures var r := GetEnforcedOptions(a, b, hubEid);
      a.eid != hubEid && b.eid != hubEid ==> r.0 == r.1 && !HasCompose(r.0)
  {
    ComposeOnlyToHub();
  }

  /** One pathway of `createPathways`. */
  function MakePathway(a: OmniPoint, b: OmniPoint, dvns: DvnConfig, hubEid: Eid): Pathway {
    Pathway(a, b, dvns, (BlockConfirmations(a.eid), BlockConfirmations(b.eid)), GetEnforcedOptions(a, b, hubEid))
  }

  /** The pathway carries the DVN set unchanged, each side's own confirmation
      depth, and the side-dependent enforced options of its two endpoints. */
  predicate PathwayPolicy(p: Pathway, dvns: DvnConfig, hubEid: Eid) {
    && p.dvns == dvns
    && p.confirmations == (BlockConfirmations(p.a.eid), BlockConfirmations(p.b.eid))
    && p.enforcedOptions == GetEnforcedOptions(p.a, p.b, hubEid)
  }

  /** `createPathways`: one pathway per visited index pair `i < j`, A the earlier contract. */
  function CreatePathways(points: seq<OmniPoint>, dvns: DvnConfig, hubEid: Eid): (r: seq<Pathway>)
    ensures |r| == |points| * (|points| - 1) / 2
    ensures forall k :: 0 <= k < |r| ==> PathwayPolicy(r[k], dvns, hubEid)
  {
    var pairs := IndexPairs(|points|);
    IndexPairsMembership(|points|);
    IndexPairsCount(|points|);
    seq(|pairs|, k requires 0 <= k < |pairs| =>
      assert pairs[k] in pairs;
      MakePathway(points[pairs[k].0], points[pairs[k].1], dvns, hubEid))
  }

  /** Every pair of contracts `i < j` is connected, with the earlier one as A. */
  lemma PathwaysCoverAllPairs(points: seq<OmniPoint>, dvns: DvnConfig, hubEid: Eid, i: nat, j: nat)
    requires i < j < |points|
    ensures exists k :: (0 <= k < |CreatePathways(points, dvns, hubEid)|
      && CreatePathways(points, dvns, hubEid)[k].a == points[i]
      && CreatePathways(points, dvns, hubEid)[k].b == points[j])
  {
    var pairs := IndexPairs(|points|);
    IndexPairsMembership(|points|);
    assert (i, j) in pairs;
    var k :| 0 <= k < |pairs| && pairs[k] == (i, j);
    assert CreatePathways(points, dvns, hubEid)[k].a == points[i];
  }

  /** Every pathway joins some contract `i` to a later contract `j`. */
  lemma PathwaysJoinEarlierToLater(points: seq<OmniPoint>, dvns: DvnConfig, hubEid: Eid, k: nat)
    requires k < |CreatePathways(points, dvns, hubEid)|
    ensures exists i, j :: (0 <= i < j < |points|
      && CreatePathways(points, dvns, hubEid)[k].a == points[i]
      && CreatePathways(points, dvns, hubEid)[k].b == points[j])
  {
    var pairs := IndexPairs(|points|);
    IndexPairsMembership(|points|);
    assert pairs[k] in pairs;
    var i, j := pairs[k].0, pairs[k].1;
    assert CreatePathways(points, dvns, hubEid)[k].a == points[i];
  }

  function Eids(points: seq<OmniPoint>): (r: seq<Eid>)
    ensures |r| == |points|
    ensures forall k :: 0 <= k < |points| ==> r[k] == points[k].eid
  {
    seq(|points|, k requires 0 <= k < |points| => points[k].eid)
  }

  /** The two pathways join the same two networks, in either order. */
  predicate SameNetworks(p: Pathway, q: Pathway) {
    (p.a.eid == q.a.eid && p.b.eid == q.b.eid) || (p.a.eid == q.b.eid && p.b.eid == q.a.eid)
  }

  /** With no network listed twice, no pathway is a self-pathway and no two
      pathways join the same two networks. */
  lemma {:induction false} PathwaysDistinct(points: seq<OmniPoint>, dvns: DvnConfig, hubEid: Eid)
    requires Seqs.NoDuplicates(Eids(points))
    ensures var r := CreatePathways(points, dvns, hubEid);
      forall k :: 0 <= k < |r| ==> r[k].a.eid != r[k].b.eid
    ensures var r := CreatePathways(points, dvns, hubEid);
      forall k1, k2 :: 0 <= k1 < k2 < |r| ==> !SameNetworks(r[k1], r[k2])
  {
    var r := CreatePathways(points, dvns, hubEid);
    var pairs := IndexPairs(|points|);
    var es := Eids(points);
    IndexPairsMembership(|points|);
    IndexPairsIncreasing(|points|);
    forall k | 0 <= k < |r| ensures r[k].a.eid != r[k].b.eid {
      assert pairs[k] in pairs;
      assert r[k].a.eid == es[pairs[k].0] && r[k].b.eid == es[pairs[k].1];
    }
    forall k1, k2 | 0 <= k1 < k2 < |r| ensures !SameNetworks(r[k1], r[k2]) {
      assert pairs[k1] in pairs && pairs[k2] in pairs;
      var (i1, j1) := pairs[k1];
      var (i2, j2) := pairs[k2];
      assert r[k1].a.eid == es[i1] && r[k1].b.eid == es[j1];
      assert r[k2].a.eid == es[i2] && r[k2].b.eid == es[j2];
      assert LexLess(pairs[k1], pairs[k2]);
    }
  }

  /** Why no wire graph is produced: no market pair selected, a hub listed as an
      expansion network, or an expansion list left undefined. */
  datatype WireError =
    | ConfigNotFound(cause: DeployConfigError)
    | ValidationFailed(violations: seq<HubViolation>)
    | MissingExpansionList(tokenType: TokenType)

  /** `[hubNetwork.eid, ...expansionNetworks]`; spreading an undefined list throws. */
  function Participants(t: TokenType, tc: TokenConfig): (r: Result<seq<Eid>, WireError>)
    ensures r.Success? <==> tc.expansionNetworks.Some?
    ensures r.Success? ==> (|r.value| == 1 + |tc.expansionNetworks.value|
      && r.value[0] == tc.HubEid() && r.value[1..] == tc.expansionNetworks.value)
    ensures r.Failure? ==> r.error == MissingExpansionList(t)
  {
    match tc.expansionNetworks
    case Some(expansion) => Success([tc.HubEid()] + expansion)
    case None => Failure(MissingExpansionList(t))
  }

  /** The contract on each participating network: the adapter on the hub, the OFT elsewhere. */
  function ParticipantPoints(ct: ContractType, key: string, hubEid: Eid, eids: seq<Eid>): (r: seq<OmniPoint>)
    ensures Eids(r) == eids
    ensures forall k :: 0 <= k < |r| ==>
      r[k].contractName == ContractName(ct, if eids[k] == hubEid then Adapter else OFT, key)
  {
    seq(|eids|, k requires 0 <= k < |eids| =>
      OmniPoint(eids[k], ContractName(ct, if eids[k] == hubEid then Adapter else OFT, key)))
  }

  /** Pathway `k` joins contract `i` (as A) to contract `j` (as B). */
  predicate Joins(g: WireGraph, k: nat, i: nat, j: nat) {
    && k < |g.connections| && i < |g.contracts| && j < |g.contracts|
    && g.connections[k].a == g.contracts[i].contract && g.connections[k].b == g.contracts[j].contract
  }

  /** Some pathway joins contract `i` to contract `j`. */
  ghost predicate Joined(g: WireGraph, i: nat, j: nat) {
    exists k: nat :: Joins(g, k, i, j)
  }

  /** Pathway `k` joins an earlier contract to a later one. */
  ghost predicate JoinsEarlierToLater(g: WireGraph, k: nat) {
    exists i: nat, j: nat :: i < j && Joins(g, k, i, j)
  }

  /** Every two contracts of the graph are joined, the earlier one as A. */
  ghost predicate JoinsAllPairs(g: WireGraph) {
    forall i: nat, j: nat :: i < j < |g.contracts| ==> Joined(g, i, j)
  }

  /** Every pathway of the graph joins an earlier contract to a later one. */
  ghost predicate JoinsOnlyPairs(g: WireGraph) {
    forall k: nat :: k < |g.connections| ==> JoinsEarlierToLater(g, k)
  }

  /** The graph joins every two of its contracts and nothing else. */
  ghost predicate JoinsEveryPair(g: WireGraph) {
    JoinsAllPairs(g) && JoinsOnlyPairs(g)
  }

  /** The contracts and pathways built from the same points join every pair of them. */
  lemma GraphJoinsEveryPair(points: seq<OmniPoint>, dvns: DvnConfig, hubEid: Eid)
    ensures JoinsEveryPair(WireGraph(CreateContracts(points), CreatePathways(points, dvns, hubEid)))
  {
    var g := WireGraph(CreateContracts(points), CreatePathways(points, dvns, hubEid));
    GraphJoinsAllPairs(points, dvns, hubEid, g);
    GraphJoinsOnlyPairs(points, dvns, hubEid, g);
  }

  lemma GraphJoinsAllPairs(points: seq<OmniPoint>, dvns: DvnConfig, hubEid: Eid, g: WireGraph)
    requires g == WireGraph(CreateContracts(points), CreatePathways(points, dvns, hubEid))
    ensures JoinsAllPairs(g)
  {
    forall i: nat, j: nat | i < j < |g.contracts|
      ensures Joined(g, i, j)
    {
      PathwaysCoverAllPairs(points, dvns, hubEid, i, j);
      var k :| 0 <= k < |g.connections| && g.connections[k].a == points[i] && g.connections[k].b == points[j];
      assert Joins(g, k, i, j);
    }
  }

  lemma GraphJoinsOnlyPairs(points: seq<OmniPoint>, dvns: DvnConfig, hubEid: Eid, g: WireGraph)
    requires g == WireGraph(CreateContracts(points), CreatePathways(points, dvns, hubEid))
    ensures JoinsOnlyPairs(g)
  {
    forall k: nat | k < |g.connections|
      ensures JoinsEarlierToLater(g, k)
    {
      PathwaysJoinEarlierToLater(points, dvns, hubEid, k);
      var i, j :| 0 <= i < j < |points| && g.connections[k].a == points[i] && g.connections[k].b == points[j];
      assert Joins(g, k, i, j);
    }
  }

  /** The adapter and OFT names of one market pair differ, so a contract name tells the role. */
  lemma ContractNamesDistinct(ct: ContractType, key: string)
    ensures ContractName(ct, Adapter, key) != ContractName(ct, OFT, key)
  {
    assert ContractName(ct, Adapter, key)[|ct.Name()| + 1] == 'A';
    assert ContractName(ct, OFT, key)[|ct.Name()| + 1] == 'O';
  }

  /** `marketPairConfig || getDeployConfig().marketPairConfig`. */
  function ResolveConfig(config: Option<MarketPairConfig>, env: string, reg: Registry): (r: Result<MarketPairConfig, DeployConfigError>)
    ensures config.Some? ==> r == Success(config.value)
    ensures config.None? ==> (r.Success? <==> env != "" && env in Keys(reg))
    ensures config.None? && r.Success? ==> (env, r.value) in reg
    ensures r.Failure? ==> r.error.available == Keys(reg)
  {
    if config.Some? then Success(config.value)
    else
      match GetDeployConfig(env, reg)
      case Success(d) => Success(d.marketPairConfig)
      case Failure(e) => Failure(e)
  }

  /** `marketPairKey || getDeployConfig().marketPairKey`. */
  function ResolveKey(key: string, env: string, reg: Registry): (r: Result<string, DeployConfigError>)
    ensures key != "" ==> r == Success(key)
    ensures key == "" ==> (r.Success? <==> env != "" && env in Keys(reg))
    ensures key == "" && r.Success? ==> r.value == env
    ensures r.Failure? ==> r.error.available == Keys(reg)
  {
    if key != "" then Success(key)
    else
      match GetDeployConfig(env, reg)
      case Success(d) => Success(d.marketPairKey)
      case Failure(e) => Failure(e)
  }

  /** `generateWireConfig` up to the hand-off to the connection-config builder. */
  function GenerateWireConfig(ct: ContractType, dvns: DvnConfig, key: string, config: Option<MarketPairConfig>,
                              env: string, reg: Registry): (r: Result<WireGraph, WireError>)
    // an unresolved configuration or key stops the generator (the lookup exits)
    ensures ResolveConfig(config, env, reg).Failure? ==>
      r == Failure(ConfigNotFound(ResolveConfig(config, env, reg).error))
    ensures ResolveConfig(config, env, reg).Success? && ResolveKey(key, env, reg).Failure? ==>
      r == Failure(ConfigNotFound(ResolveKey(key, env, reg).error))
    // past the check, the generator fails exactly when the expansion list is undefined
    ensures (&& ResolveConfig(config, env, reg).Success?
             && ResolveKey(key, env, reg).Success?
             && ValidateHubNetworksNotInExpansion(ResolveConfig(config, env, reg).value).Success?) ==>
      var tc := ResolveConfig(config, env, reg).value.Get(Category(ct));
      && (r.Failure? <==> tc.expansionNetworks.None?)
      && (r.Failure? ==> r.error == MissingExpansionList(Category(ct)))
    // the hub/expansion check runs before anything is built, and its failure is final
    ensures (&& ResolveConfig(config, env, reg).Success?
             && ResolveKey(key, env, reg).Success?
             && ValidationErrors(ResolveConfig(config, env, reg).value) != []) ==>
      r == Failure(ValidationFailed(ValidationErrors(ResolveConfig(config, env, reg).value)))
    ensures r.Success? ==>
      && ResolveConfig(config, env, reg).Success?
      && ResolveKey(key, env, reg).Success?
      && ValidateHubNetworksNotInExpansion(ResolveConfig(config, env, reg).value).Success?
    ensures r.Success? ==>
      var tc := ResolveConfig(config, env, reg).value.Get(Category(ct));
      var n := |r.value.contracts|;
      && tc.expansionNetworks.Some?
      && n == 1 + |tc.expansionNetworks.value|
      && |r.value.connections| == n * (n - 1) / 2
      && r.value.contracts[0].contract == OmniPoint(tc.HubEid(), ContractName(ct, Adapter, ResolveKey(key, env, reg).value))
      && (forall k :: 0 <= k < |r.value.connections| ==> PathwayPolicy(r.value.connections[k], dvns, tc.HubEid()))
    // one contract per participant, in order, the adapter exactly on the hub,
    // and one pathway per pair of them
    ensures r.Success? ==>
      var tc := ResolveConfig(config, env, reg).value.Get(Category(ct));
      var eids := Participants(Category(ct), tc).value;
      var points := ParticipantPoints(ct, ResolveKey(key, env, reg).value, tc.HubEid(), eids);
      && r.value == WireGraph(CreateContracts(points), CreatePathways(points, dvns, tc.HubEid()))
      && (forall k :: 0 <= k < |r.value.contracts| ==> r.value.contracts[k].contract == points[k])
      && JoinsEveryPair(r.value)
  {
    match ResolveConfig(config, env, reg)
    case Failure(e) => Failure(ConfigNotFound(e))
    case Success(cfg) =>
      match ResolveKey(key, env, reg)
      case Failure(e) => Failure(ConfigNotFound(e))
      case Success(k) =>
        match ValidateHubNetworksNotInExpansion(cfg)
        case Failure(violations) => Failure(ValidationFailed(violations))
        case Success(_) =>
          var t := Category(ct);
          var tc := cfg.Get(t);
          match Participants(t, tc)
          case Failure(e) => Failure(e)
          case Success(eids) =>
            var points := ParticipantPoints(ct, k, tc.HubEid(), eids);
            GraphJoinsEveryPair(points, dvns, tc.HubEid());
            Success(WireGraph(CreateContracts(points), CreatePathways(points, dvns, tc.HubEid())))
  }

  /** The networks a market pair deploys to are exactly the participants of its two wire graphs. */
  lemma DeployTargetsAreParticipants(c: MarketPairConfig, eid: Eid)
    requires c.gm.expansionNetworks.Some? && c.glv.expansionNetworks.Some?
    ensures ShouldDeployToNetwork(c, eid) <==>
      eid in Participants(GM, c.gm).value || eid in Participants(GLV, c.glv).value
  {
    var gm := Participants(GM, c.gm).value;
    var glv := Participants(GLV, c.glv).value;
    assert eid in gm <==> eid == gm[0] || eid in gm[1..] by {
      assert gm == [gm[0]] + gm[1..];
    }
    assert eid in glv <==> eid == glv[0] || eid in glv[1..] by {
      assert glv == [glv[0]] + glv[1..];
    }
    assert c.Get(GM) == c.gm && c.Get(GLV) == c.glv;
  }
}

=== FILE: wrappers.dfy ===
/** Option and Result datatypes standing in for JavaScript's `undefined`
    and for thrown errors / early exits. */
module Wrappers {

  /** A value that may be absent (a partial-record lookup, an optional argument). */
  datatype Option<+T> = None | Some(value: T) {

    /** The wrapped value, or `default` when absent (JavaScript's `x || default`). */
    function GetOr(default: T): T {
      match this
      case Some(v) => v
      case None => default
    }
  }

  /** Either a computed value or the error that stops the computation. */
  datatype Result<+T, +E> = Success(value: T) | Failure(error: E) {

    predicate IsFailure() {
      Failure?
    }

    function PropagateFailure<U>(): Result<U, E>
      requires Failure?
    {
      Failure(error)
    }

    function Extract(): T
      requires Success?
    {
      value
    }
  }
}
